=== FILE: README.md ===
# scheduler data layer, in Dafny

A model of the data layer of `scheduler`, a small school planner with a GTK
front-end. Its user keeps courses, with weekly meeting times and tasks, and a
list of holidays. The model covers:

- the calendar primitives `Date`, `Time` and `Day`: validation on
  construction, ordering, the strict `is_between` test, text formatting, and
  the `YYYY-MM-DD` and weekday-name parsers (`dates`, `times`, `days`, with the
  small piece of Rust string handling they rely on in `text`);
- the task checklist. It is never empty, because a placeholder step
  `(false, "Completed?")` stands in while there are no real steps (`tasks`,
  `legacy_tasks`);
- the interval-merge pass behind `recheck_holidays` and `recheck_times` (`merge`).
  Rust's nested index loop is taken literally:
  - the outer range is fixed at entry;
  - the inner range is the stale `len` variable;
  - the pass stops early once `i` or `j` reaches the current length;
  - indices shift after `remove(j)`.

  One generic definition serves all three copies of the loop. A `scoped` flag
  tells whether the pass compares only meetings on the same day;
- courses (`course`, `legacy_course`), the holiday list shared by both
  generations of the application (`holiday`), and the application aggregates
  (`application`, `legacy_application`).

The repository carries two generations of the task, course and application
files: `src/*.rs` and `src/application/*.rs`. Both are modelled, as separate
modules. The important difference is that the older `recheck_times` never looks
at the day of a meeting. See Findings.

Everything is pure: Rust's `&mut self` methods are functions from the old value
to the new one. A panicking `Vec::remove` becomes a precondition
`index < |…|`. A `Result` or `Option` stays a `Result` or `Option`.

## Model

| member | source | states |
|---|---|---|
| Vecs.Remove | src/application/course.rs:35-37 | `Vec::remove`: one shorter, the prefix kept, the tail shifted down by one, and the multiset loses exactly the removed element |
| Dates.New | src/clock/date.rs:17-35 | succeeds exactly when the date is valid: year ≥ 1970, month 1..12, day from 1 to the month's length with February always 28. The month-length table is checked against an independent month-length rule |
| Dates.Less | src/clock/date.rs:8-14 | the derived field-by-field order is the order of dates packed into one number |
| Dates.OrdinalInjective | src/clock/date.rs:8-14 | packing is injective, so the derived order separates any two distinct dates |
| Dates.LessIsStrictTotalOrder | src/clock/date.rs:8-14 | date order is irreflexive, transitive and total |
| Dates.IsBetween | src/clock/date.rs:38-40 | `is_between(d, start, end)` holds exactly when `d`'s packed number lies strictly between those of `start` and `end` |
| Dates.IsBetweenIsStrict | src/clock/date.rs:38-40 | `is_between` excludes both ends, and no date is between a start and an end that is not after it |
| Dates.AsString | src/clock/date.rs:54-56 | splitting the printed date on `-` gives exactly three pieces: the year padded to four digits, then the month and the day padded to two |
| Dates.AsStringLayout | src/clock/date.rs:54-56 | a valid date with a four-digit year prints as exactly 10 characters, with `-` at positions 4 and 7, and each field reads back from its slot |
| Dates.TryFrom | src/clock/date.rs:65-88 | fewer than three `-` pieces is an error. A success is a valid date whose fields are the first three pieces parsed. Conversely, whenever those pieces parse to a valid date, that date is the result |
| Dates.TryFromAsString | src/clock/date.rs:54-88 | the edit round trip: every valid date's text parses back to the same date |
| Dates.TryFromIgnoresTail | src/clock/date.rs:69-72 | pieces after the third are never looked at |
| Dates.NewExamples | src/clock/date.rs:126-160 | the unit tests: 2019-10-28 and 2000-01-01 are accepted; day 32 and month 13 are refused; 1990 < 2000; 2020-06-01 lies between 2020-01-01 and 2020-12-01 and 2021-01-01 does not |
| Dates.LeapDayExample | src/clock/date.rs:17-35 | an example beyond the unit tests: 28 February is accepted and 29 February refused, since the month table gives February 28 days |
| Dates.TryFromExample1 | src/clock/date.rs:65-88 | `"2020-01-05"` parses to 2020-01-05 |
| Dates.TryFromDigits | src/clock/date.rs:65-88 | three runs of digits joined by `-` read as the date their values spell, whenever that date is valid |
| Dates.ParseExample1 | src/clock/date.rs:79-83 | the pieces `"2020"`, `"01"`, `"05"` parse as 2020 (`u16`), 1 and 5 (`u8`) |
| Dates.TryFromExample2 | src/clock/date.rs:72-74 | `"2020-01"` has only two pieces and is an error |
| Times.New | src/clock/time.rs:11-17 | succeeds exactly when hour ≤ 23 and minute ≤ 59; otherwise fails with the fixed message |
| Times.Less | src/clock/time.rs:4-8 | on valid times the derived hour-then-minute order is the order of minutes since midnight |
| Times.LessIsStrictTotalOrder | src/clock/time.rs:4-8 | time order is irreflexive, transitive and total |
| Times.IsBetween | src/course.rs:55 | on valid times, `t` is strictly between `start` and `end` exactly when its minutes since midnight are |
| Times.IsBetweenIsStrict | src/course.rs:55 | the strict span test excludes both ends and is empty when start is not before end |
| Times.AsString | src/clock/time.rs:19-28 | splitting the printed time on `:` gives exactly two pieces, hour and minute, each padded to two digits |
| Times.AsStringLayout | src/clock/time.rs:19-28 | a valid time prints as `HH:MM`: five characters, `:` in the middle, each field reading back |
| Times.Examples | src/clock/time.rs:40-56 | the unit tests: 12:00, 0:00 and 23:59 are accepted, 24:00 and 0:60 refused, 9:00 < 10:00 < 13:00 |
| Times.AsStringExample | src/clock/time.rs:19-28 | an example beyond the unit tests: 9:05 prints as `09:05` |
| Days.DiscriminantInjective | src/clock/day.rs:5-15 | the declaration order gives distinct days distinct positions |
| Days.AsStr | src/clock/day.rs:37-47 | each printed name has six to nine characters, starts with a capital and ends in `day` |
| Days.AsStrInjective | src/clock/day.rs:37-47 | distinct days print distinct names |
| Days.Weekdays | src/clock/day.rs:49-57 | five days, and a day is in the list exactly when its position is at most 4, listed in position order |
| Days.LowerNameIsLowerAsStr | src/clock/day.rs:65-73 | the names the parser matches are the printed names, lower-cased |
| Days.TryFrom | src/clock/day.rs:65-76 | a success names the day whose lower-cased name equals the lower-cased input; an error means no day's name matches |
| Days.TryFromMatchesName | src/clock/day.rs:65-76 | `try_from(s) == Ok(d)` exactly when `s` and `d`'s name agree after lower-casing, and it fails exactly when no day's name agrees |
| Days.TryFromAsStr | src/clock/day.rs:37-76 | every day's printed name parses back to that day |
| Days.Examples | src/clock/day.rs:65-76 | `"MONDAY"` and `"tHuRsDaY"` parse; `"Mon"` does not |
| Text.ParseUnsigned | src/clock/date.rs:79-83 | `str::parse` for an unsigned type succeeds exactly when, after one optional leading `+`, at least one character is left, all of them digits, with a value at most the type's maximum; the result is that value |
| Text.ParseUnsignedExamples | src/clock/date.rs:79-83 | `"+7"` reads as 7 and `"255"` as 255; a lone `+`, the empty string, `"-1"` and `"256"` are refused for `u8` |
| Text.ParseZeroPad | src/clock/date.rs:54-88 | a zero-padded number parses back to itself |
| Text.Split | src/clock/date.rs:67 | `split('-')` yields at least one piece and no piece contains the separator |
| Text.JoinSplit | src/clock/date.rs:67 | splitting loses nothing: joining the pieces with the separator rebuilds the string |
| Text.SplitJoin | src/clock/date.rs:67 | separator-free pieces survive a join followed by a split |
| Text.SplitAppend | src/clock/date.rs:67-72 | a further separator and text only add pieces at the end |
| Text.SplitDigits | src/clock/date.rs:67 | a run of digits has no separator, so it splits into itself alone |
| Text.SplitThreeDigits | src/clock/date.rs:67-72 | three digit runs joined by the separator split back into exactly those three pieces |
| Text.ValueOfZeroPad | src/clock/date.rs:55 | `{:0N}` padding does not change the value of the digits |
| Text.Lower | src/clock/day.rs:66 | lower-casing keeps the length and maps each character on its own |
| Tasks.AnyOpen | src/application/task.rs:29-34 | the `any` scan is true exactly when some step is still open |
| Tasks.New | src/application/task.rs:16-25 | exactly the placeholder step, so a new task is not complete |
| Tasks.IsComplete | src/application/task.rs:29-34 | complete exactly when every step is done |
| Tasks.ToggleStep | src/application/task.rs:37-41 | flips the flag of step `index` only; labels, other flags and length are kept; an index past the end changes nothing |
| Tasks.ToggleStepTwice | src/application/task.rs:37-41 | toggling the same step twice restores the task |
| Tasks.AddStep | src/application/task.rs:45-50 | a leading placeholder is dropped, any other list kept, and an open step with the given label appended, so the task is not complete |
| Tasks.RmStep | src/application/task.rs:54-59 | removes exactly step `index`; when it was the only one, the placeholder comes back |
| Tasks.IsCompleteStr | src/application/task.rs:63-69 | `"Done"` exactly when complete, `"Not Done"` otherwise |
| Tasks.StepsNeverEmpty | src/application/task.rs:16-59 | toggling, adding and removing keep the checklist non-empty |
| Tasks.PlaceholderLifecycle | src/application/task.rs:45-59 | the first real step replaces the placeholder; removing it brings the placeholder back |
| Tasks.Examples | src/application/task.rs:88-102 | the unit tests: an all-done list is complete; toggling a new task's only step completes it |
| LegacyTasks.New | src/task.rs:14-23 | exactly the placeholder step; not complete |
| LegacyTasks.IsComplete | src/task.rs:27-31 | complete exactly when no step is open |
| LegacyTasks.ToggleStep | src/task.rs:34-38 | flips only the indexed flag; out of range changes nothing |
| LegacyTasks.ToggleStepTwice | src/task.rs:34-38 | toggling twice restores the task |
| LegacyTasks.AddStep | src/task.rs:42-47 | drops a leading placeholder, appends an open step, so the task is not complete |
| LegacyTasks.RmStep | src/task.rs:51-56 | removes exactly the index, with the placeholder back when the list empties |
| LegacyTasks.StepsNeverEmpty | src/task.rs:14-56 | all step operations keep the checklist non-empty |
| LegacyTasks.Examples | src/task.rs:69-83 | the older module's unit tests |
| Merge.Pass | src/application/application.rs:40-92 | one call of `recheck_holidays`/`recheck_times`: an empty list is left alone, and the list never grows and never empties |
| Merge.PassTwice | src/application/application.rs:108-114 | the two passes `add_holiday`/`add_time` run after a push: the list never grows and never empties |
| Merge.Loop | src/application/application.rs:44-91 | the loop from any iteration on never lengthens the list and never empties a non-empty one |
| Merge.Stretch | src/application/application.rs:77-79 | absorbing keeps key and start and moves the end to the later of the two ends |
| Merge.PassOne | src/application/application.rs:44-58 | a single entry is left alone |
| Merge.PairFoldsSecond | src/application/application.rs:44-91 | on two entries where the second starts strictly inside the first, one pass leaves just the first, stretched over the second |
| Merge.PairFoldsFirst | src/application/application.rs:44-91 | on two entries where only the first starts strictly inside the second, one pass leaves just the second, stretched over the first |
| Merge.PairStays | src/application/application.rs:44-91 | on two entries neither of which starts inside the other, one or two passes change nothing |
| Merge.TwoPassesLeaveOverlap | src/application/application.rs:108-114 | `add_holiday`'s two passes can still leave an entry starting strictly inside another: `(0,2) (2,3) (2,3) (1,3)` ends as `(0,3) (2,3)` |
| Merge.LeftoverFirstPass | src/application/application.rs:40-91 | the first pass on that list folds `(1,3)` into `(0,2)` and nothing else |
| Merge.LeftoverSecondPass | src/application/application.rs:40-91 | the second pass folds one `(2,3)` into `(0,3)`, then returns because the inner index has reached the shrunk length |
| Merge.CoversPush | src/application/application.rs:109 | pushing a span adds exactly the points strictly inside it to the covered points |
| Merge.PassPair | src/application/application.rs:44-91 | on two entries, the pass first folds the second into the first when it starts strictly inside it; failing that, it folds the first into the second; otherwise both stay. A second pass changes nothing |
| Merge.PassSettled | src/application/application.rs:63-89 | when no entry starts strictly inside another, the pass and the double pass change nothing |
| Merge.PairSettled | src/course.rs:55 | two spans that only touch, or share a start, never pass the strict overlap test in either order |
| Merge.PassOneKey | src/course.rs:41-63 | when all entries carry one key, the day-blind pass and the day-scoped pass coincide |
| Merge.DescendsLength | src/application/course.rs:45-102 | a survivor list is no longer than its input, and survivor `k` comes from input position at least `k` |
| Merge.PassDescends | src/application/application.rs:40-92 | each survivor keeps its origin's key and start, survivors keep input order, ends only move later and each equals some input end |
| Merge.DescendsTrans | src/application/application.rs:108-114 | that relation composes, which carries it through the double pass |
| Merge.PassTwiceDescends | src/application/application.rs:108-114 | the double pass of `add_holiday`/`add_time` keeps the same guarantees |
| Merge.AbsorbCovers | src/application/application.rs:64-88 | one merge step neither loses nor invents a covered point |
| Merge.PassCovers | src/application/course.rs:74-98 | the points strictly inside some span (of a given key, when scoped) are the same before and after one or two passes |
| Merge.PassKeepsKeys | src/application/course.rs:65-71 | the day-scoped pass keeps the set of keys present |
| Courses.New | src/application/course.rs:21-29 | the three strings, no meetings and no tasks |
| Courses.AddTask | src/application/course.rs:31-33 | appends `Task::new(name, desc, due)`, nothing else changes |
| Courses.RmTask | src/application/course.rs:35-37 | removes exactly task `index` |
| Courses.RecheckTimes | src/application/course.rs:45-102 | only the meeting list changes, and it never grows |
| Courses.AddTime | src/application/course.rs:104-110 | only the meeting list changes; it grows by at most one and is non-empty |
| Courses.RmTime | src/application/course.rs:112-114 | removes exactly meeting `index` |
| Courses.AnyOnDay | src/application/course.rs:116-119 | the `any` scan finds a meeting on the day exactly when one exists |
| Courses.IsOnDay | src/application/course.rs:116-119 | `is_on_day(d)` exactly when some meeting is on `d` |
| Courses.RecheckTimesDescends | src/application/course.rs:45-102 | survivors keep day and start, in input order; ends only move later, to some input end |
| Courses.RecheckTimesKeepsBusy | src/application/course.rs:65-98 | for every day and time, "strictly inside a meeting of that day" is unchanged, so no day's busy times depend on other days' meetings |
| Courses.RecheckTimesKeepsDays | src/application/course.rs:65-119 | `is_on_day` is unchanged by the pass |
| Courses.RecheckTimesSettled | src/application/course.rs:74-98 | a list with no same-day overlap is left exactly as it is |
| Courses.AddTimeDays | src/application/course.rs:104-119 | after `add_time(d, …)` the course meets on `d`, on every day it met before, and on no other day |
| Courses.AddTimeBusy | src/application/course.rs:104-110 | after `add_time`, a day's busy times are the old ones plus those strictly inside the new meeting |
| Courses.RecheckExample | src/application/course.rs:136-152 | the `recheck` and `is_on_day` unit tests |
| Courses.AddTimeExample | src/application/course.rs:154-182 | the `add_time` unit test ends in the single meeting Sunday 6:00-17:00 |
| Courses.AddTimeStage1 | src/application/course.rs:158-161 | its first stage gives Sunday 9:00-12:00 |
| Courses.AddTimeStage2 | src/application/course.rs:163-173 | its second stage gives Sunday 9:00-15:00 |
| Courses.AddTimeStage3 | src/application/course.rs:175-181 | its third stage gives Sunday 6:00-17:00 |
| LegacyCourses.New | src/course.rs:20-28 | the three strings, no meetings and no tasks |
| LegacyCourses.AddTask | src/course.rs:30-32 | appends a new task, nothing else changes |
| LegacyCourses.RemoveTask | src/course.rs:34-36 | removes exactly task `index` |
| LegacyCourses.RecheckTimes | src/course.rs:41-63 | only the meeting list changes, and it never grows |
| LegacyCourses.AddTime | src/course.rs:65-69 | only the meeting list changes; it grows by at most one and is non-empty |
| LegacyCourses.RmTime | src/course.rs:71-73 | removes exactly meeting `index` |
| LegacyCourses.IsOnDay | src/course.rs:76-85 | the early-returning scan answers true exactly when some meeting is on the day |
| LegacyCourses.BusyAtCovers | src/course.rs:55 | "some meeting, of any day, has `t` strictly inside" is the coverage the day-blind pass works with |
| LegacyCourses.RecheckTimesDescends | src/course.rs:41-63 | survivors keep day and start, in order; ends only move later, to some input end |
| LegacyCourses.RecheckTimesKeepsBusy | src/course.rs:55-59 | ignoring days, the union of the open spans is unchanged |
| LegacyCourses.AddTimeBusy | src/course.rs:65-69 | after `add_time` the busy times are the old ones plus those strictly inside the new meeting |
| LegacyCourses.AddTimeDays | src/course.rs:52-85 | the pass never invents a day: every day met on afterwards was met on before or is the new meeting's |
| LegacyCourses.AddTimeOneDay | src/course.rs:41-69 | while all meetings fall on one day, the older `add_time` computes what the day-scoped one does |
| LegacyCourses.AddTimeLosesDay | src/course.rs:52-59 | Sunday 9:00-12:00, then Monday 10:00-11:00: the Monday meeting is swallowed and the course no longer meets on Monday |
| LegacyCourses.RecheckExample | src/course.rs:102-109 | the older `recheck` unit test |
| LegacyCourses.AddTimeExample | src/course.rs:111-139 | the older `add_time` unit test ends in Sunday 6:00-17:00 |
| LegacyCourses.AddTimeStage1 | src/course.rs:115-118 | its first stage gives Sunday 9:00-12:00 |
| LegacyCourses.AddTimeStage2 | src/course.rs:120-131 | its second stage gives Sunday 9:00-15:00 |
| LegacyCourses.AddTimeStage3 | src/course.rs:133-138 | its third stage gives Sunday 6:00-17:00 |
| Holidays.Recheck | src/application/application.rs:40-92 | the pass never lengthens the list and never empties a non-empty one |
| Holidays.Add | src/application/application.rs:108-114 | push then two passes: non-empty, at most one longer |
| Holidays.Remove | src/application/application.rs:118-120 | removes exactly holiday `index` |
| Holidays.IsHoliday | src/application/application.rs:95-101 | true exactly when the date lies strictly inside some holiday |
| Holidays.IsHolidayCovers | src/application/application.rs:95-101 | `is_holiday` is the coverage the pass preserves |
| Holidays.RecheckDescends | src/application/application.rs:40-92 | survivors keep their start, in input order; ends only move later, to some input end |
| Holidays.RecheckKeepsHolidays | src/application/application.rs:63-101 | for every date, `is_holiday` is the same before and after `recheck_holidays` |
| Holidays.RecheckSettled | src/application/application.rs:63-89 | with no start strictly inside another holiday, one or two passes change nothing |
| Holidays.AddIsHoliday | src/application/application.rs:108-114 | after `add_holiday`, a date is a holiday exactly when it was one or lies strictly inside the new pair |
| Holidays.AddTouching | src/application/application.rs:64 | a holiday starting on the day the only other one ends is kept separate |
| Holidays.RecheckExample | src/application/application.rs:192-217 | the `recheck` unit test: the holiday grows to 2009-05-01 .. 2020-10-01 |
| Holidays.IsHolidayExample | src/application/application.rs:219-226 | 2010-07-01 is a holiday inside 2010-06-01 .. 2010-08-01 |
| Holidays.TouchingExample | src/application/application.rs:63-64 | January-June and June-December stay two holidays |
| Holidays.OverlapExample | src/application/application.rs:63-89 | January-August and July-September become January-September |
| Applications.Default | src/application/application.rs:159-166 | no courses and no holidays |
| Applications.DefaultCourse | src/application/application.rs:22-24 | the course `new_course` pushes: empty strings, no meetings, no tasks |
| Applications.NewCourse | src/application/application.rs:22-24 | appends that course, nothing else changes |
| Applications.AddCourse | src/application/application.rs:26-28 | appends the given course, nothing else changes |
| Applications.RmCourse | src/application/application.rs:30-32 | removes exactly course `index` |
| Applications.RecheckHolidays | src/application/application.rs:40-92 | courses untouched, holiday list never grows |
| Applications.IsHoliday | src/application/application.rs:95-101 | true exactly when the date lies strictly inside some holiday |
| Applications.AddHoliday | src/application/application.rs:108-114 | courses untouched, holiday list non-empty and at most one longer |
| Applications.RmHoliday | src/application/application.rs:118-120 | courses untouched, exactly holiday `index` removed |
| Applications.AddHolidayIsHoliday | src/application/application.rs:95-114 | after `add_holiday`, a date is a holiday exactly when it was one or lies strictly inside the new pair |
| Applications.Examples | src/application/application.rs:192-226 | the `recheck` and `is_holiday` unit tests |
| LegacyApplications.New | src/application.rs:19-24 | no courses and no holidays |
| LegacyApplications.NewCourse | src/application.rs:27-29 | appends `Course::new("Name", "Teacher", "Room")`, nothing else changes |
| LegacyApplications.AddCourse | src/application.rs:31-33 | appends the given course |
| LegacyApplications.RmCourse | src/application.rs:35-37 | removes exactly course `index` |
| LegacyApplications.RecheckHolidays | src/application.rs:43-95 | courses untouched, holiday list never grows |
| LegacyApplications.IsHoliday | src/application.rs:98-104 | true exactly when the date lies strictly inside some holiday |
| LegacyApplications.AddHoliday | src/application.rs:111-117 | courses untouched; push, then two passes |
| LegacyApplications.RmHoliday | src/application.rs:121-123 | exactly holiday `index` removed |
| LegacyApplications.AddHolidayIsHoliday | src/application.rs:98-117 | after `add_holiday`, a date is a holiday exactly when it was one or lies strictly inside the new pair |
| LegacyApplications.Examples | src/application.rs:193-227 | the older `recheck` and `is_holiday` unit tests |

## Left out

- A panic becomes a precondition. `Vec::remove` past the end (every `rm_*`/`remove_*` operation) and `steps[0]` on an empty checklist (`add_step`) panic in Rust, so `Vecs.Remove` and every removal built on it require an index in range, and `AddStep` requires a non-empty checklist.
- The GTK front-end (`src/gui/*`, `src/main.rs`): widget wiring with no logic of its own.
- `serialize`, `From<Vec<u8>>`, `save`, `load`, `load_or_default`: a foreign binary format and file I/O.
- `Date::today`, `Day::today`, `new_holiday`, `Task::default`: they read the wall clock.
- `Date + usize` (src/clock/date.rs:93-107): it promises nothing and can produce an invalid date.
- A general theorem that two passes leave no overlapping pair: the source runs a second pass because one pass misses some cases, but nothing in the source states or tests that two passes always suffice, and they do not: Merge.TwoPassesLeaveOverlap exhibits a list of four spans that still has an overlapping pair after both passes. Only the test scenarios, the short-list cases and the invariants above are proved.
- Text.Lower: ASCII lower-casing only; Rust's `to_lowercase` also maps non-ASCII letters. Day names are ASCII, so which strings parse to a day differs only for inputs with non-ASCII letters.
- Text.ParseUnsigned: Rust's error kinds (empty, invalid digit, overflow) are not modelled, only success or failure.
- Times.AsStringLayout and Dates.AsStringLayout: stated for valid values; Dates also needs a year of at most four digits, the case the fixed-width `{:04}` text is meant for.
- `Time::try_from`, which the front-end calls, is defined in no source file, so it is not modelled.
- `Course::default()` (src/application/application.rs:23) is called but never defined, and `Course` has no `Default` derive. It is modelled as the all-empty course a derived `Default` would give.
- The newer tests call `Application::new()`, which the newer `Application` does not define; they are modelled from `Default`.
- `Time::is_between`, which src/application/course.rs:74 calls, is not defined in src/clock/time.rs; it is modelled as the strict test that src/course.rs:55 spells out.
- In src/application/application.rs:64, `is_between` receives dates by value while src/clock/date.rs:38 takes references; the meaning is the same and the model does not distinguish them.

## Findings

| source | as written | input that shows it | evidently intended | confidence | as-written member | corrected member |
|---|---|---|---|---|---|---|
| src/course.rs:52-59 | the older `recheck_times` merges a meeting into any meeting whose span contains its start, whatever the two days are | `add_time(Sunday, 9:00, 12:00)` then `add_time(Monday, 10:00, 11:00)`: the Monday meeting is removed, `times == [(Sunday, 9:00, 12:00)]` and `is_on_day(Monday)` is false | meetings on different days never affect each other, as in the newer copy (src/application/course.rs:65-71) | not executed | LegacyCourses.AddTimeLosesDay | Courses.AddTimeDays |

=== FILE: application.dfy ===
/** The application state (`application::Application`): the user's courses and
    holidays. */
module Applications {
  import Dates
  import Courses
  import Holidays
  import Vecs

  datatype Application = Application(courses: seq<Courses.Course>, holidays: seq<Holidays.Holiday>)

  /** `Application::default`: no courses and no holidays. The tests' `new()` is
      this too. */
  function Default(): (a: Application)
    ensures a.courses == [] && a.holidays == []
  {
    Application([], [])
  }

  /** `Course::default()`, which the derived `Default` of a struct of strings and
      vectors makes all-empty. */
  function DefaultCourse(): (c: Courses.Course)
    ensures c.name == "" && c.teacher == "" && c.room == ""
    ensures c.times == [] && c.tasks == []
  {
    Courses.New("", "", "")
  }

  /** `new_course`: appends an empty course. */
  function NewCourse(a: Application): (r: Application)
    ensures r.holidays == a.holidays
    ensures |r.courses| == |a.courses| + 1 && r.courses[..|a.courses|] == a.courses
    ensures r.courses[|a.courses|] == DefaultCourse()
  {
    a.(courses := a.courses + [DefaultCourse()])
  }

  /** `add_course`: appends the given course. */
  function AddCourse(a: Application, c: Courses.Course): (r: Application)
    ensures r.holidays == a.holidays
    ensures |r.courses| == |a.courses| + 1 && r.courses[..|a.courses|] == a.courses
    ensures r.courses[|a.courses|] == c
  {
    a.(courses := a.courses + [c])
  }

  /** `rm_course`: removes exactly course `index` (Rust panics past the end). */
  function RmCourse(a: Application, index: nat): (r: Application)
    requires index < |a.courses|
    ensures r.holidays == a.holidays
    ensures |r.courses| == |a.courses| - 1
    ensures forall k :: 0 <= k < index ==> r.courses[k] == a.courses[k]
    ensures forall k :: index <= k < |r.courses| ==> r.courses[k] == a.courses[k + 1]
  {
    a.(courses := Vecs.Remove(a.courses, index))
  }

  /** `recheck_holidays`. */
  function RecheckHolidays(a: Application): (r: Application)
    ensures r.courses == a.courses
    ensures |r.holidays| <= |a.holidays|
  {
    a.(holidays := Holidays.Recheck(a.holidays))
  }

  /** `is_holiday`. */
  function IsHoliday(a: Application, date: Dates.Date): (r: bool)
    ensures r <==> exists m :: 0 <= m < |a.holidays| && Dates.IsBetween(date, a.holidays[m].start, a.holidays[m].end)
  {
    Holidays.IsHoliday(a.holidays, date)
  }

  /** `add_holiday`. */
  function AddHoliday(a: Application, start: Dates.Date, end: Dates.Date): (r: Application)
    ensures r.courses == a.courses
    ensures 0 < |r.holidays| <= |a.holidays| + 1
  {
    a.(holidays := Holidays.Add(a.holidays, start, end))
  }

  /** `rm_holiday`: removes exactly holiday `index` (Rust panics past the end). */
  function RmHoliday(a: Application, index: nat): (r: Application)
    requires index < |a.holidays|
    ensures r.courses == a.courses
    ensures |r.holidays| == |a.holidays| - 1
    ensures forall k :: 0 <= k < index ==> r.holidays[k] == a.holidays[k]
    ensures forall k :: index <= k < |r.holidays| ==> r.holidays[k] == a.holidays[k + 1]
  {
    a.(holidays := Holidays.Remove(a.holidays, index))
  }

  /** Adding a holiday leaves the courses alone, and afterwards a date is a holiday
      exactly when it was one before or lies strictly inside the new pair. */
  lemma AddHolidayIsHoliday(a: Application, start: Dates.Date, end: Dates.Date, date: Dates.Date)
    ensures IsHoliday(AddHoliday(a, start, end), date) <==> IsHoliday(a, date) || Dates.IsBetween(date, start, end)
  {
    Holidays.AddIsHoliday(a.holidays, start, end, date);
  }

  /** The `recheck` and `is_holiday` unit tests, from an empty application. */
  lemma Examples()
    ensures AddHoliday(AddHoliday(AddHoliday(AddHoliday(Default(),
              Dates.Date(2010, 6, 1), Dates.Date(2010, 8, 1)),
              Dates.Date(2010, 7, 1), Dates.Date(2010, 9, 1)),
              Dates.Date(2010, 5, 1), Dates.Date(2010, 10, 1)),
              Dates.Date(2009, 5, 1), Dates.Date(2020, 10, 1)).holidays
         == [Holidays.Span(2009, 5, 1, 2020, 10, 1)]
    ensures IsHoliday(AddHoliday(Default(), Dates.Date(2010, 6, 1), Dates.Date(2010, 8, 1)), Dates.Date(2010, 7, 1))
  {
    Holidays.RecheckExample();
    Holidays.IsHolidayExample();
  }
}

=== FILE: course.dfy ===
/** A course (`application::course::Course`): name, teacher and room, its weekly
    meeting times `(day, from, to)` and its tasks. Meeting times are kept merged
    per day by the day-scoped recheck pass. */
module Courses {
  import Dates
  import Times
  import Days
  import Tasks
  import Merge
  import Vecs

  /** A weekly meeting: on `key`, from `start` to `end`. */
  type Slot = Merge.Interval<Days.Day, Times.Time>

  datatype Course = Course(name: string, teacher: string, room: string, times: seq<Slot>, tasks: seq<Tasks.Task>)

  /** `Course::new`: the three strings, no meeting times and no tasks. */
  function New(name: string, teacher: string, room: string): (c: Course)
    ensures c.name == name && c.teacher == teacher && c.room == room
    ensures c.times == [] && c.tasks == []
  {
    Course(name, teacher, room, [], [])
  }

  /** `add_task`: appends a fresh task and leaves the others alone. */
  function AddTask(c: Course, name: string, desc: string, due: Dates.Date): (r: Course)
    ensures r == c.(tasks := r.tasks)
    ensures |r.tasks| == |c.tasks| + 1 && r.tasks[..|c.tasks|] == c.tasks
    ensures r.tasks[|c.tasks|] == Tasks.New(name, desc, due)
  {
    c.(tasks := c.tasks + [Tasks.New(name, desc, due)])
  }

  /** `rm_task`: removes exactly task `index` (Rust panics past the end). */
  function RmTask(c: Course, index: nat): (r: Course)
    requires index < |c.tasks|
    ensures r == c.(tasks := r.tasks)
    ensures |r.tasks| == |c.tasks| - 1
    ensures forall k :: 0 <= k < index ==> r.tasks[k] == c.tasks[k]
    ensures forall k :: index <= k < |r.tasks| ==> r.tasks[k] == c.tasks[k + 1]
  {
    c.(tasks := Vecs.Remove(c.tasks, index))
  }

  /** `recheck_times`: the overlap pass, comparing only meetings on the same day. */
  function RecheckTimes(c: Course): (r: Course)
    ensures r == c.(times := r.times)
    ensures |r.times| <= |c.times|
  {
    c.(times := Merge.Pass(c.times, Times.Less, true))
  }

  /** `add_time`: push the meeting, then run the pass twice. */
  function AddTime(c: Course, day: Days.Day, start: Times.Time, end: Times.Time): (r: Course)
    ensures r == c.(times := r.times)
    ensures 0 < |r.times| <= |c.times| + 1
  {
    RecheckTimes(RecheckTimes(c.(times := c.times + [Merge.Interval(day, start, end)])))
  }

  /** `add_time` in terms of the shared pass: the pushed list, passed over twice. */
  lemma AddTimePassesTwice(c: Course, day: Days.Day, start: Times.Time, end: Times.Time)
    ensures AddTime(c, day, start, end).times
         == Merge.PassTwice(c.times + [Merge.Interval(day, start, end)], Times.Less, true)
  {
  }

  /** `rm_time`: removes exactly meeting `index` (Rust panics past the end). */
  function RmTime(c: Course, index: nat): (r: Course)
    requires index < |c.times|
    ensures r == c.(times := r.times)
    ensures |r.times| == |c.times| - 1
    ensures forall k :: 0 <= k < index ==> r.times[k] == c.times[k]
    ensures forall k :: index <= k < |r.times| ==> r.times[k] == c.times[k + 1]
  {
    c.(times := Vecs.Remove(c.times, index))
  }

  /** The `times.iter().any(|&(day, _, _)| day == expected)` scan. */
  function AnyOnDay(times: seq<Slot>, day: Days.Day): (r: bool)
    ensures r <==> exists k :: 0 <= k < |times| && times[k].key == day
  {
    if |times| == 0 then false else times[0].key == day || AnyOnDay(times[1..], day)
  }

  /** `is_on_day`: some meeting falls on `day`. */
  function IsOnDay(c: Course, day: Days.Day): (r: bool)
    ensures r <==> Merge.HasKey(c.times, day)
  {
    AnyOnDay(c.times, day)
  }

  /** `t` lies strictly inside a meeting of `day`. */
  predicate BusyAt(c: Course, day: Days.Day, t: Times.Time) {
    Merge.Covers(c.times, Times.Less, true, day, t)
  }

  /** The recheck pass keeps every meeting's day and start, keeps the survivors in
      their original order, only moves ends later (to some input end) and never
      adds meetings. */
  lemma RecheckTimesDescends(c: Course) returns (idx: seq<nat>)
    ensures Merge.Descends(c.times, RecheckTimes(c).times, idx, Times.Less)
  {
    Times.LessIsStrictTotalOrder();
    idx := Merge.PassDescends(c.times, Times.Less, true);
  }

  /** Meetings of different days never affect each other, so the pass neither
      loses nor invents a busy moment of any day. */
  lemma RecheckTimesKeepsBusy(c: Course, day: Days.Day, t: Times.Time)
    ensures BusyAt(RecheckTimes(c), day, t) <==> BusyAt(c, day, t)
  {
    Times.LessIsStrictTotalOrder();
    Merge.PassCovers(c.times, Times.Less, true, day, t);
  }

  /** The pass never drops the last meeting of a day. */
  lemma RecheckTimesKeepsDays(c: Course, day: Days.Day)
    ensures IsOnDay(RecheckTimes(c), day) <==> IsOnDay(c, day)
  {
    Merge.PassKeepsKeys(c.times, Times.Less, day);
  }

  /** A meeting list in which no meeting starts strictly inside another one of the
      same day is left exactly as it is. */
  lemma RecheckTimesSettled(c: Course)
    requires Merge.Settled(c.times, Times.Less, true)
    ensures RecheckTimes(c) == c
  {
    Merge.PassSettled(c.times, Times.Less, true);
  }

  /** After `add_time`, the course meets on that day, on every day it met before
      and on no other day. */
  lemma AddTimeDays(c: Course, day: Days.Day, start: Times.Time, end: Times.Time, other: Days.Day)
    ensures IsOnDay(AddTime(c, day, start, end), other) <==> IsOnDay(c, other) || other == day
  {
    var pushed := c.times + [Merge.Interval(day, start, end)];
    Merge.PassKeepsKeys(pushed, Times.Less, other);
    assert pushed[|c.times|].key == day;
    if Merge.HasKey(pushed, other) && other != day {
      var m :| 0 <= m < |pushed| && pushed[m].key == other;
      assert c.times[m].key == other;
    }
    if Merge.HasKey(c.times, other) {
      var m :| 0 <= m < |c.times| && c.times[m].key == other;
      assert pushed[m].key == other;
    }
  }

  /** After `add_time`, the busy moments of each day are those before, plus (on
      `day`) the moments strictly inside the new meeting. */
  lemma AddTimeBusy(c: Course, day: Days.Day, start: Times.Time, end: Times.Time, other: Days.Day, t: Times.Time)
    ensures BusyAt(AddTime(c, day, start, end), other, t)
        <==> BusyAt(c, other, t) || (other == day && Times.IsBetween(t, start, end))
  {
    var added := Merge.Interval(day, start, end);
    var pushed := c.times + [added];
    Times.LessIsStrictTotalOrder();
    Merge.PassCovers(pushed, Times.Less, true, other, t);
    Merge.CoversPush(c.times, added, Times.Less, true, other, t);
  }

  /** The tests' course, and their `(day, time(h, m), time(h, m))` triples. */
  function Math(): Course {
    New("Math", "Willis", "S37")
  }

  function Meet(day: Days.Day, h0: Times.U8, m0: Times.U8, h1: Times.U8, m1: Times.U8): Slot {
    Merge.Interval(day, Times.Time(h0, m0), Times.Time(h1, m1))
  }

  /** The `recheck` and `is_on_day` unit tests of `application::course`. */
  lemma RecheckExample()
    ensures AddTime(AddTime(Math(), Days.Sunday, Times.Time(9, 0), Times.Time(11, 0)),
                    Days.Sunday, Times.Time(10, 0), Times.Time(12, 0)).times
         == [Meet(Days.Sunday, 9, 0, 12, 0)]
    ensures IsOnDay(AddTime(Math(), Days.Sunday, Times.Time(9, 0), Times.Time(11, 0)), Days.Sunday)
    ensures !IsOnDay(AddTime(Math(), Days.Sunday, Times.Time(9, 0), Times.Time(11, 0)), Days.Monday)
  {
    var c := Math();
    AddTimePassesTwice(c, Days.Sunday, Times.Time(9, 0), Times.Time(11, 0));
    assert c.times + [Meet(Days.Sunday, 9, 0, 11, 0)] == [Meet(Days.Sunday, 9, 0, 11, 0)];
    Merge.PassOne(Meet(Days.Sunday, 9, 0, 11, 0), Times.Less, true);
    c := AddTime(c, Days.Sunday, Times.Time(9, 0), Times.Time(11, 0));
    assert c.times == [Meet(Days.Sunday, 9, 0, 11, 0)];
    AddTimePassesTwice(c, Days.Sunday, Times.Time(10, 0), Times.Time(12, 0));
    assert c.times + [Meet(Days.Sunday, 10, 0, 12, 0)] == [Meet(Days.Sunday, 9, 0, 11, 0), Meet(Days.Sunday, 10, 0, 12, 0)];
    Merge.PassPair(Meet(Days.Sunday, 9, 0, 11, 0), Meet(Days.Sunday, 10, 0, 12, 0), Times.Less, true);
    c := AddTime(c, Days.Sunday, Times.Time(10, 0), Times.Time(12, 0));
    assert c.times == [Meet(Days.Sunday, 9, 0, 12, 0)];
  }

  /** The `add_time` unit test of `application::course`, in its three stages:
      eight meetings on one Sunday end up as the single span 6:00 to 17:00. */
  lemma AddTimeExample()
    ensures AddTime(AddTime(AddTime(AddTime(AddTime(AddTime(AddTime(AddTime(Math(),
              Days.Sunday, Times.Time(9, 0), Times.Time(10, 0)),
              Days.Sunday, Times.Time(9, 30), Times.Time(12, 0)),
              Days.Sunday, Times.Time(13, 0), Times.Time(15, 0)),
              Days.Sunday, Times.Time(11, 0), Times.Time(14, 0)),
              Days.Sunday, Times.Time(14, 0), Times.Time(16, 0)),
              Days.Sunday, Times.Time(14, 0), Times.Time(17, 0)),
              Days.Sunday, Times.Time(7, 0), Times.Time(13, 0)),
              Days.Sunday, Times.Time(6, 0), Times.Time(13, 0)).times
         == [Meet(Days.Sunday, 6, 0, 17, 0)]
  {
    AddTimeStage1();
    var c := AddTime(AddTime(Math(),
               Days.Sunday, Times.Time(9, 0), Times.Time(10, 0)),
               Days.Sunday, Times.Time(9, 30), Times.Time(12, 0));
    AddTimeStage2(c);
    c := AddTime(AddTime(c,
           Days.Sunday, Times.Time(13, 0), Times.Time(15, 0)),
           Days.Sunday, Times.Time(11, 0), Times.Time(14, 0));
    AddTimeStage3(c);
  }

  /** 9:00-10:00, then 9:30-12:00, which starts inside it: one span 9:00-12:00. */
  lemma AddTimeStage1()
    ensures AddTime(AddTime(Math(),
              Days.Sunday, Times.Time(9, 0), Times.Time(10, 0)),
              Days.Sunday, Times.Time(9, 30), Times.Time(12, 0)).times
         == [Meet(Days.Sunday, 9, 0, 12, 0)]
  {
    var c := Math();
    AddTimePassesTwice(c, Days.Sunday, Times.Time(9, 0), Times.Time(10, 0));
    assert c.times + [Meet(Days.Sunday, 9, 0, 10, 0)] == [Meet(Days.Sunday, 9, 0, 10, 0)];
    Merge.PassOne(Meet(Days.Sunday, 9, 0, 10, 0), Times.Less, true);
    c := AddTime(c, Days.Sunday, Times.Time(9, 0), Times.Time(10, 0));
    assert c.times == [Meet(Days.Sunday, 9, 0, 10, 0)];
    AddTimePassesTwice(c, Days.Sunday, Times.Time(9, 30), Times.Time(12, 0));
    assert c.times + [Meet(Days.Sunday, 9, 30, 12, 0)] == [Meet(Days.Sunday, 9, 0, 10, 0), Meet(Days.Sunday, 9, 30, 12, 0)];
    Merge.PassPair(Meet(Days.Sunday, 9, 0, 10, 0), Meet(Days.Sunday, 9, 30, 12, 0), Times.Less, true);
    c := AddTime(c, Days.Sunday, Times.Time(9, 30), Times.Time(12, 0));
    assert c.times == [Meet(Days.Sunday, 9, 0, 12, 0)];
  }

  /** 13:00-15:00 stays apart from 9:00-12:00; then 11:00-14:00 is folded into
      9:00-12:00 by the first pass, and 13:00-15:00 into the result by the
      second: one span 9:00-15:00. */
  lemma AddTimeStage2(c0: Course)
    requires c0.times == [Meet(Days.Sunday, 9, 0, 12, 0)]
    ensures AddTime(AddTime(c0,
              Days.Sunday, Times.Time(13, 0), Times.Time(15, 0)),
              Days.Sunday, Times.Time(11, 0), Times.Time(14, 0)).times
         == [Meet(Days.Sunday, 9, 0, 15, 0)]
  {
    var c := c0;
    AddTimePassesTwice(c, Days.Sunday, Times.Time(13, 0), Times.Time(15, 0));
    assert c.times + [Meet(Days.Sunday, 13, 0, 15, 0)] == [Meet(Days.Sunday, 9, 0, 12, 0), Meet(Days.Sunday, 13, 0, 15, 0)];
    Merge.PassPair(Meet(Days.Sunday, 9, 0, 12, 0), Meet(Days.Sunday, 13, 0, 15, 0), Times.Less, true);
    c := AddTime(c, Days.Sunday, Times.Time(13, 0), Times.Time(15, 0));
    assert c.times == [Meet(Days.Sunday, 9, 0, 12, 0), Meet(Days.Sunday, 13, 0, 15, 0)];
    AddTimePassesTwice(c, Days.Sunday, Times.Time(11, 0), Times.Time(14, 0));
    assert c.times + [Meet(Days.Sunday, 11, 0, 14, 0)] == [Meet(Days.Sunday, 9, 0, 12, 0), Meet(Days.Sunday, 13, 0, 15, 0), Meet(Days.Sunday, 11, 0, 14, 0)];
    assert Merge.Absorb([Meet(Days.Sunday, 9, 0, 12, 0), Meet(Days.Sunday, 13, 0, 15, 0), Meet(Days.Sunday, 11, 0, 14, 0)], 0, 2, Times.Less) == [Meet(Days.Sunday, 9, 0, 14, 0), Meet(Days.Sunday, 13, 0, 15, 0)];
    assert Merge.Loop([Meet(Days.Sunday, 9, 0, 12, 0), Meet(Days.Sunday, 13, 0, 15, 0), Meet(Days.Sunday, 11, 0, 14, 0)], Times.Less, true, 3, 0, 0, 3, 3) == Merge.Loop([Meet(Days.Sunday, 9, 0, 14, 0), Meet(Days.Sunday, 13, 0, 15, 0)], Times.Less, true, 3, 0, 3, 3, 3);
    assert Merge.Loop([Meet(Days.Sunday, 9, 0, 14, 0), Meet(Days.Sunday, 13, 0, 15, 0)], Times.Less, true, 3, 0, 3, 3, 3) == [Meet(Days.Sunday, 9, 0, 14, 0), Meet(Days.Sunday, 13, 0, 15, 0)];
    assert Merge.Pass([Meet(Days.Sunday, 9, 0, 12, 0), Meet(Days.Sunday, 13, 0, 15, 0), Meet(Days.Sunday, 11, 0, 14, 0)], Times.Less, true) == [Meet(Days.Sunday, 9, 0, 14, 0), Meet(Days.Sunday, 13, 0, 15, 0)];
    Merge.PassPair(Meet(Days.Sunday, 9, 0, 14, 0), Meet(Days.Sunday, 13, 0, 15, 0), Times.Less, true);
    c := AddTime(c, Days.Sunday, Times.Time(11, 0), Times.Time(14, 0));
    assert c.times == [Meet(Days.Sunday, 9, 0, 15, 0)];
  }

  /** Two meetings that run past 15:00 and two that start before 9:00 stretch the
      span at both ends: one span 6:00-17:00. */
  lemma AddTimeStage3(c0: Course)
    requires c0.times == [Meet(Days.Sunday, 9, 0, 15, 0)]
    ensures AddTime(AddTime(AddTime(AddTime(c0,
              Days.Sunday, Times.Time(14, 0), Times.Time(16, 0)),
              Days.Sunday, Times.Time(14, 0), Times.Time(17, 0)),
              Days.Sunday, Times.Time(7, 0), Times.Time(13, 0)),
              Days.Sunday, Times.Time(6, 0), Times.Time(13, 0)).times
         == [Meet(Days.Sunday, 6, 0, 17, 0)]
  {
    var c := c0;
    AddTimePassesTwice(c, Days.Sunday, Times.Time(14, 0), Times.Time(16, 0));
    assert c.times + [Meet(Days.Sunday, 14, 0, 16, 0)] == [Meet(Days.Sunday, 9, 0, 15, 0), Meet(Days.Sunday, 14, 0, 16, 0)];
    Merge.PassPair(Meet(Days.Sunday, 9, 0, 15, 0), Meet(Days.Sunday, 14, 0, 16, 0), Times.Less, true);
    c := AddTime(c, Days.Sunday, Times.Time(14, 0), Times.Time(16, 0));
    assert c.times == [Meet(Days.Sunday, 9, 0, 16, 0)];
    AddTimePassesTwice(c, Days.Sunday, Times.Time(14, 0), Times.Time(17, 0));
    assert c.times + [Meet(Days.Sunday, 14, 0, 17, 0)] == [Meet(Days.Sunday, 9, 0, 16, 0), Meet(Days.Sunday, 14, 0, 17, 0)];
    Merge.PassPair(Meet(Days.Sunday, 9, 0, 16, 0), Meet(Days.Sunday, 14, 0, 17, 0), Times.Less, true);
    c := AddTime(c, Days.Sunday, Times.Time(14, 0), Times.Time(17, 0));
    assert c.times == [Meet(Days.Sunday, 9, 0, 17, 0)];
    AddTimePassesTwice(c, Days.Sunday, Times.Time(7, 0), Times.Time(13, 0));
    assert c.times + [Meet(Days.Sunday, 7, 0, 13, 0)] == [Meet(Days.Sunday, 9, 0, 17, 0), Meet(Days.Sunday, 7, 0, 13, 0)];
    Merge.PassPair(Meet(Days.Sunday, 9, 0, 17, 0), Meet(Days.Sunday, 7, 0, 13, 0), Times.Less, true);
    c := AddTime(c, Days.Sunday, Times.Time(7, 0), Times.Time(13, 0));
    assert c.times == [Meet(Days.Sunday, 7, 0, 17, 0)];
    AddTimePassesTwice(c, Days.Sunday, Times.Time(6, 0), Times.Time(13, 0));
    assert c.times + [Meet(Days.Sunday, 6, 0, 13, 0)] == [Meet(Days.Sunday, 7, 0, 17, 0), Meet(Days.Sunday, 6, 0, 13, 0)];
    Merge.PassPair(Meet(Days.Sunday, 7, 0, 17, 0), Meet(Days.Sunday, 6, 0, 13, 0), Times.Less, true);
    c := AddTime(c, Days.Sunday, Times.Time(6, 0), Times.Time(13, 0));
    assert c.times == [Meet(Days.Sunday, 6, 0, 17, 0)];
  }
}

=== FILE: date.dfy ===
/** A calendar day (`clock::Date`): a year, a month and a day of the month,
    checked on construction against a fixed month-length table in which
    February always has 28 days. */
module Dates {
  import opened Wrappers
  import Text
  import Orders

  /** Rust's `u8` and `u16`: the field widths of `Date`. */
  type U8 = x: int | 0 <= x < 0x100
  type U16 = x: int | 0 <= x < 0x1_0000

  datatype Date = Date(year: U16, month: U8, day: U8)

  /** The lookup table `Date::new` consults, indexed by month number (entry 0 is unused). */
  const DaysInMonths: seq<nat> := [0, 31, 28, 31, 30, 31, 30, 31, 31, 30, 31, 30, 31]

  /** The month lengths of a year without 29 February, by the usual rhyme
      ("thirty days hath September, April, June and November"). */
  function MonthLength(month: nat): nat
    requires 1 <= month <= 12
  {
    if month == 2 then 28
    else if month == 4 || month == 6 || month == 9 || month == 11 then 30
    else 31
  }

  /** What every `Date` the program builds satisfies: it is on or after 1970 and
      names a day that exists in a non-leap year. */
  predicate Valid(d: Date) {
    && d.year >= 1970
    && 1 <= d.month <= 12
    && 1 <= d.day <= MonthLength(d.month)
  }

  /** `Date::new`: rejects a zero day or month, a year before 1970, a month past
      December, and a day beyond the table's entry for that month. */
  function New(year: U16, month: U8, day: U8): (r: Result<Date, ()>)
    ensures r.Ok? <==> Valid(Date(year, month, day))
    ensures r.Ok? ==> r.value == Date(year, month, day)
  {
    if day == 0 || month == 0 || year < 1970 || month > 12 then Err(())
    else if day > DaysInMonths[month] then Err(())
    else Ok(Date(year, month, day))
  }

  /** A date packed into one number, most significant field first. */
  function Ordinal(d: Date): nat {
    (d.year * 0x100 + d.month) * 0x100 + d.day
  }

  /** The derived `PartialOrd`: compare years, then months, then days. This is
      the order of the packed numbers. */
  predicate Less(a: Date, b: Date)
    ensures Less(a, b) <==> Ordinal(a) < Ordinal(b)
  {
    var ka, kb := a.year * 0x100 + a.month, b.year * 0x100 + b.month;
    assert ka < kb <==> a.year < b.year || (a.year == b.year && a.month < b.month);
    assert Ordinal(a) < Ordinal(b) <==> ka < kb || (ka == kb && a.day < b.day);
    || a.year < b.year
    || (a.year == b.year && a.month < b.month)
    || (a.year == b.year && a.month == b.month && a.day < b.day)
  }

  /** Packing loses nothing: distinct dates get distinct numbers. */
  lemma OrdinalInjective(a: Date, b: Date)
    ensures Ordinal(a) == Ordinal(b) <==> a == b
  {
    var ka, kb := a.year * 0x100 + a.month, b.year * 0x100 + b.month;
    assert Ordinal(a) == Ordinal(b) ==> ka == kb;
  }

  lemma LessIsStrictTotalOrder()
    ensures Orders.StrictTotalOrder(Less)
  {
    forall x, y | x != y ensures Less(x, y) || Less(y, x) {
      OrdinalInjective(x, y);
    }
  }

  /** `Date::is_between`: strictly after `start` and strictly before `end`. */
  predicate IsBetween(d: Date, start: Date, end: Date)
    ensures IsBetween(d, start, end) <==> Ordinal(start) < Ordinal(d) < Ordinal(end)
  {
    Less(start, d) && Less(d, end)
  }

  /** Both ends are excluded, and a span whose start is not before its end
      contains no date at all. */
  lemma IsBetweenIsStrict(d: Date, start: Date, end: Date)
    ensures !IsBetween(start, start, end)
    ensures !IsBetween(end, start, end)
    ensures !Less(start, end) ==> !IsBetween(d, start, end)
  {
  }

  /** `Date::as_string` and `Display`: `{:04}-{:02}-{:02}`. Splitting the text on
      `-` gives back the three padded fields, in order. */
  function AsString(d: Date): (s: string)
    ensures Text.Split(s, '-') == [Text.ZeroPad(d.year, 4), Text.ZeroPad(d.month, 2), Text.ZeroPad(d.day, 2)]
  {
    var y, m, dd := Text.ZeroPad(d.year, 4), Text.ZeroPad(d.month, 2), Text.ZeroPad(d.day, 2);
    Text.SplitAppend(y, m, '-');
    Text.SplitAppend(y + "-" + m, dd, '-');
    Text.SplitDigits(y, '-');
    Text.SplitDigits(m, '-');
    Text.SplitDigits(dd, '-');
    y + "-" + m + "-" + dd
  }

  /** A valid date prints as exactly ten characters `YYYY-MM-DD` while its year has
      four digits, and each field reads back from its slot. */
  lemma AsStringLayout(d: Date)
    requires Valid(d) && d.year <= 9999
    ensures |AsString(d)| == 10
    ensures AsString(d)[4] == '-' && AsString(d)[7] == '-'
    ensures Text.AllDigits(AsString(d)[..4]) && Text.Value(AsString(d)[..4]) == d.year
    ensures Text.AllDigits(AsString(d)[5..7]) && Text.Value(AsString(d)[5..7]) == d.month
    ensures Text.AllDigits(AsString(d)[8..]) && Text.Value(AsString(d)[8..]) == d.day
  {
    var y, m, dd := Text.ZeroPad(d.year, 4), Text.ZeroPad(d.month, 2), Text.ZeroPad(d.day, 2);
    Text.FourDigits(d.year);
    Text.TwoDigits(d.month);
    Text.TwoDigits(d.day);
    Text.ValueOfZeroPad(d.year, 4);
    Text.ValueOfZeroPad(d.month, 2);
    Text.ValueOfZeroPad(d.day, 2);
    var s := AsString(d);
    assert s == y + "-" + m + "-" + dd;
    assert s[..4] == y;
    assert s[5..7] == m;
    assert s[8..] == dd;
  }

  /** The three fields `TryFrom<String>` reads: the first three `-`-separated
      pieces parsed as `u16`, `u8` and `u8`. */
  function Fields(segments: seq<string>): (r: Option<(U16, U8, U8)>)
    requires |segments| >= 3
  {
    match (Text.ParseUnsigned(segments[0], 0xFFFF),
           Text.ParseUnsigned(segments[1], 0xFF),
           Text.ParseUnsigned(segments[2], 0xFF))
    case (Some(y), Some(m), Some(dd)) => Some((y, m, dd))
    case _ => None
  }

  /** `Date::try_from(String)`: split on `-`; fewer than three pieces, or a first
      three that do not parse, is an error; otherwise `Date::new` decides. Pieces
      after the third are never looked at. */
  function TryFrom(s: string): (r: Result<Date, ()>)
    ensures |Text.Split(s, '-')| < 3 ==> r.Err?
    ensures r.Ok? ==> Valid(r.value)
    ensures r.Ok? ==> ReadsAs(Text.Split(s, '-'), r.value)
    ensures forall d :: ReadsAs(Text.Split(s, '-'), d) && Valid(d) ==> r == Ok(d)
  {
    var segments := Text.Split(s, '-');
    if |segments| < 3 then Err(())
    else
      match Fields(segments)
      case Some((y, m, dd)) => New(y, m, dd)
      case None => Err(())
  }

  /** The first three pieces parse, as `u16`, `u8` and `u8`, to the fields of `d`. */
  predicate ReadsAs(pieces: seq<string>, d: Date) {
    && |pieces| >= 3
    && Text.ParseUnsigned(pieces[0], 0xFFFF) == Some(d.year as nat)
    && Text.ParseUnsigned(pieces[1], 0xFF) == Some(d.month as nat)
    && Text.ParseUnsigned(pieces[2], 0xFF) == Some(d.day as nat)
  }

  /** The edit round trip the front-end relies on: a date's text parses back to
      the same date. */
  lemma {:induction false} TryFromAsString(d: Date)
    requires Valid(d)
    ensures TryFrom(AsString(d)) == Ok(d)
  {
    Text.ParseZeroPad(d.year, 4, 0xFFFF);
    Text.ParseZeroPad(d.month, 2, 0xFF);
    Text.ParseZeroPad(d.day, 2, 0xFF);
  }

  /** Text after a third separator is ignored: appending `-x` to a string that
      already has three pieces does not change what it parses to. */
  lemma TryFromIgnoresTail(s: string, x: string)
    requires |Text.Split(s, '-')| >= 3
    ensures TryFrom(s + "-" + x) == TryFrom(s)
  {
    Text.SplitAppend(s, x, '-');
    var a := Text.Split(s, '-');
    var b := Text.Split(s + "-" + x, '-');
    assert b[..3] == a[..3];
    assert Fields(b) == Fields(a);
  }

  /** Checks against the unit tests of `clock::date`. */
  lemma NewExamples()
    ensures New(2019, 10, 28).Ok? && New(2000, 1, 1).Ok?
    ensures New(2019, 10, 32).Err? && New(2019, 13, 1).Err?
    ensures Less(Date(1990, 1, 1), Date(2000, 1, 1))
    ensures IsBetween(Date(2020, 6, 1), Date(2020, 1, 1), Date(2020, 12, 1))
    ensures !IsBetween(Date(2021, 1, 1), Date(2020, 1, 1), Date(2020, 12, 1))
  {
  }

  /** An example beyond the unit tests: the month table gives February 28 days,
      so 29 February is refused. */
  lemma LeapDayExample()
    ensures New(2019, 2, 28).Ok?
    ensures New(2019, 2, 29).Err?
  {
  }

  lemma TryFromExample1()
    ensures TryFrom("2020-01-05") == Ok(Date(2020, 1, 5))
  {
    assert "2020" + ['-'] + "01" + ['-'] + "05" == "2020-01-05";
    ParseExample1();
    TryFromDigits("2020", "01", "05", Date(2020, 1, 5));
  }

  /** Three runs of digits joined by `-` read as the date their values spell,
      whenever that date is valid. */
  lemma TryFromDigits(y: string, m: string, dd: string, d: Date)
    requires Text.AllDigits(y) && Text.AllDigits(m) && Text.AllDigits(dd)
    requires ReadsAs([y, m, dd], d) && Valid(d)
    ensures TryFrom(y + ['-'] + m + ['-'] + dd) == Ok(d)
  {
    Text.SplitThreeDigits(y, m, dd, '-');
  }

  /** The three fields of `"2020-01-05"` parse as `u16`, `u8` and `u8`. */
  lemma ParseExample1()
    ensures Text.ParseUnsigned("2020", 0xFFFF) == Some(2020)
    ensures Text.ParseUnsigned("01", 0xFF) == Some(1)
    ensures Text.ParseUnsigned("05", 0xFF) == Some(5)
  {
    assert Text.UnsignedDigits("2020") == "2020";
    assert "2020"[..3] == "202" && "202"[..2] == "20" && "20"[..1] == "2";
    assert Text.Value("2020") == 2020;
    assert Text.UnsignedDigits("01") == "01" && Text.UnsignedDigits("05") == "05";
    assert "01"[..1] == "0" && "05"[..1] == "0" && "0"[..0] == "";
    assert Text.Value("01") == 1 && Text.Value("05") == 5;
  }

  lemma TryFromExample2()
    ensures TryFrom("2020-01") == Err(())
  {
    assert "2020-01" == "2020" + ['-'] + "01";
    Text.SplitAppend("2020", "01", '-');
    Text.SplitDigits("2020", '-');
    Text.SplitDigits("01", '-');
  }
}

=== FILE: day.dfy ===
/** The day of the week (`clock::Day`). */
module Days {
  import opened Wrappers
  import Text

  datatype Day = Sunday | Monday | Tuesday | Wednesday | Thursday | Friday | Saturday

  /** The enum discriminant: declaration order, Sunday first. */
  function Discriminant(d: Day): (n: nat)
    ensures n < 7
  {
    match d
    case Sunday => 0
    case Monday => 1
    case Tuesday => 2
    case Wednesday => 3
    case Thursday => 4
    case Friday => 5
    case Saturday => 6
  }

  /** `Day::as_str`, which `Display` also prints: the capitalised English name. */
  function AsStr(d: Day): (s: string)
    ensures 6 <= |s| <= 9 && s[|s| - 3..] == "day"
    ensures 'A' <= s[0] <= 'Z'
  {
    match d
    case Sunday => "Sunday"
    case Monday => "Monday"
    case Tuesday => "Tuesday"
    case Wednesday => "Wednesday"
    case Thursday => "Thursday"
    case Friday => "Friday"
    case Saturday => "Saturday"
  }

  /** Distinct days have distinct names. */
  lemma AsStrInjective(a: Day, b: Day)
    ensures AsStr(a) == AsStr(b) ==> a == b
  {
  }

  /** The declaration order gives each day its own position. */
  lemma DiscriminantInjective(a: Day, b: Day)
    ensures Discriminant(a) == Discriminant(b) ==> a == b
  {
  }

  /** `Day::weekdays`: the five school days of the front-end's week view. */
  function Weekdays(): (r: seq<Day>)
    ensures |r| == 5
    ensures forall d :: d in r <==> Discriminant(d) <= 4
    ensures forall k :: 0 <= k < |r| ==> Discriminant(r[k]) == k
  {
    [Sunday, Monday, Tuesday, Wednesday, Thursday]
  }

  /** The lower-cased names `Day::try_from` matches against. */
  function LowerName(d: Day): string
  {
    match d
    case Sunday => "sunday"
    case Monday => "monday"
    case Tuesday => "tuesday"
    case Wednesday => "wednesday"
    case Thursday => "thursday"
    case Friday => "friday"
    case Saturday => "saturday"
  }

  /** The matched names are exactly the printed names, lower-cased. */
  lemma LowerNameIsLowerAsStr(d: Day)
    ensures LowerName(d) == Text.Lower(AsStr(d))
  {
    match d
    case Sunday =>
      assert Text.LowerChar('S') == 's';
      assert Text.Lower("Sunday") == "sunday";
    case Monday =>
      assert Text.LowerChar('M') == 'm';
      assert Text.Lower("Monday") == "monday";
    case Tuesday =>
      assert Text.LowerChar('T') == 't';
      assert Text.Lower("Tuesday") == "tuesday";
    case Wednesday =>
      assert Text.LowerChar('W') == 'w';
      assert Text.Lower("Wednesday") == "wednesday";
    case Thursday =>
      assert Text.LowerChar('T') == 't';
      assert Text.Lower("Thursday") == "thursday";
    case Friday =>
      assert Text.LowerChar('F') == 'f';
      assert Text.Lower("Friday") == "friday";
    case Saturday =>
      assert Text.LowerChar('S') == 's';
      assert Text.Lower("Saturday") == "saturday";
  }

  /** `Day::try_from(String)`: the lower-cased text must be one of the seven
      lower-cased names; anything else is an error. */
  function TryFrom(s: string): (r: Result<Day, ()>)
    ensures r.Ok? ==> Text.Lower(s) == LowerName(r.value)
    ensures r.Err? ==> forall d :: Text.Lower(s) != LowerName(d)
  {
    var lower := Text.Lower(s);
    if lower == "sunday" then Ok(Sunday)
    else if lower == "monday" then Ok(Monday)
    else if lower == "tuesday" then Ok(Tuesday)
    else if lower == "wednesday" then Ok(Wednesday)
    else if lower == "thursday" then Ok(Thursday)
    else if lower == "friday" then Ok(Friday)
    else if lower == "saturday" then Ok(Saturday)
    else Err(())
  }

  /** Parsing is case-insensitive and exact: `s` names day `d` precisely when the
      two agree after lower-casing, and a string naming no day is an error. */
  lemma TryFromMatchesName(s: string, d: Day)
    ensures TryFrom(s) == Ok(d) <==> Text.Lower(s) == Text.Lower(AsStr(d))
    ensures TryFrom(s).Err? <==> forall e: Day :: Text.Lower(s) != Text.Lower(AsStr(e))
  {
    LowerNameIsLowerAsStr(d);
    forall e: Day ensures LowerName(e) == Text.Lower(AsStr(e)) {
      LowerNameIsLowerAsStr(e);
    }
    if TryFrom(s).Ok? && Text.Lower(s) == LowerName(d) {
      LowerNamesDistinct(TryFrom(s).value, d);
    }
  }

  lemma LowerNamesDistinct(a: Day, b: Day)
    requires LowerName(a) == LowerName(b)
    ensures a == b
  {
    assert LowerName(a)[..2] == LowerName(b)[..2];
  }

  /** The front-end's edit round trip: a day's printed name parses back to it. */
  lemma TryFromAsStr(d: Day)
    ensures TryFrom(AsStr(d)) == Ok(d)
  {
    TryFromMatchesName(AsStr(d), d);
  }

  lemma Examples()
    ensures TryFrom("MONDAY") == Ok(Monday)
    ensures TryFrom("tHuRsDaY") == Ok(Thursday)
    ensures TryFrom("Mon").Err?
  {
    assert Text.Lower("MONDAY") == "monday";
    assert Text.Lower("tHuRsDaY") == "thursday";
    assert |Text.Lower("Mon")| == 3;
  }
}

=== FILE: holiday.dfy ===
/** The holiday list of the application (`Application::holidays` and the methods
    on it, which are the same in both generations of `Application`): a list of
    `(start, end)` date pairs, kept merged by the shared, unscoped overlap pass. */
module Holidays {
  import Dates
  import Merge
  import Vecs

  /** `(start, end)`; the key is the unit value, since holidays are never told apart. */
  type Holiday = Merge.Interval<(), Dates.Date>

  function Of(start: Dates.Date, end: Dates.Date): Holiday {
    Merge.Interval((), start, end)
  }

  /** `recheck_holidays`: the overlap pass over all holidays. */
  function Recheck(hs: seq<Holiday>): (r: seq<Holiday>)
    ensures |r| <= |hs|
    ensures 0 < |hs| ==> 0 < |r|
  {
    Merge.Pass(hs, Dates.Less, false)
  }

  /** `add_holiday`: push the pair, then run the pass twice. */
  function Add(hs: seq<Holiday>, start: Dates.Date, end: Dates.Date): (r: seq<Holiday>)
    ensures 0 < |r| <= |hs| + 1
  {
    Recheck(Recheck(hs + [Of(start, end)]))
  }

  /** `add_holiday` in terms of the shared pass. */
  lemma AddPassesTwice(hs: seq<Holiday>, start: Dates.Date, end: Dates.Date)
    ensures Add(hs, start, end) == Merge.PassTwice(hs + [Of(start, end)], Dates.Less, false)
  {
  }

  /** `rm_holiday`: removes exactly holiday `index` (Rust panics past the end). */
  function Remove(hs: seq<Holiday>, index: nat): (r: seq<Holiday>)
    requires index < |hs|
    ensures |r| == |hs| - 1
    ensures forall k :: 0 <= k < index ==> r[k] == hs[k]
    ensures forall k :: index <= k < |r| ==> r[k] == hs[k + 1]
  {
    Vecs.Remove(hs, index)
  }

  /** `is_holiday`: the `any` scan, true when `date` lies strictly inside some
      holiday. The first and last day of a holiday do not count. */
  function IsHoliday(hs: seq<Holiday>, date: Dates.Date): (r: bool)
    ensures r <==> exists m :: 0 <= m < |hs| && Dates.IsBetween(date, hs[m].start, hs[m].end)
  {
    if |hs| == 0 then false
    else Dates.IsBetween(date, hs[0].start, hs[0].end) || IsHoliday(hs[1..], date)
  }

  /** `is_holiday` is the shared coverage predicate. */
  lemma IsHolidayCovers(hs: seq<Holiday>, date: Dates.Date)
    ensures IsHoliday(hs, date) <==> Merge.Covers(hs, Dates.Less, false, (), date)
  {
    if IsHoliday(hs, date) {
      var m :| 0 <= m < |hs| && Dates.IsBetween(date, hs[m].start, hs[m].end);
      assert Merge.Inside(hs[m], Dates.Less, false, (), date);
    }
  }

  /** The pass keeps each holiday's start, keeps survivors in order, only moves
      ends later (to some input end) and never adds holidays. */
  lemma RecheckDescends(hs: seq<Holiday>) returns (idx: seq<nat>)
    ensures Merge.Descends(hs, Recheck(hs), idx, Dates.Less)
  {
    Dates.LessIsStrictTotalOrder();
    idx := Merge.PassDescends(hs, Dates.Less, false);
  }

  /** The pass neither loses nor invents a holiday date. */
  lemma RecheckKeepsHolidays(hs: seq<Holiday>, date: Dates.Date)
    ensures IsHoliday(Recheck(hs), date) <==> IsHoliday(hs, date)
  {
    Dates.LessIsStrictTotalOrder();
    Merge.PassCovers(hs, Dates.Less, false, (), date);
    IsHolidayCovers(hs, date);
    IsHolidayCovers(Recheck(hs), date);
  }

  /** A list in which no holiday starts strictly inside another is left as it is. */
  lemma RecheckSettled(hs: seq<Holiday>)
    requires Merge.Settled(hs, Dates.Less, false)
    ensures Recheck(hs) == hs
    ensures Merge.PassTwice(hs, Dates.Less, false) == hs
  {
    Merge.PassSettled(hs, Dates.Less, false);
  }

  /** After `add_holiday`, a date is a holiday exactly when it was one before or
      lies strictly inside the new pair. */
  lemma AddIsHoliday(hs: seq<Holiday>, start: Dates.Date, end: Dates.Date, date: Dates.Date)
    ensures IsHoliday(Add(hs, start, end), date) <==> IsHoliday(hs, date) || Dates.IsBetween(date, start, end)
  {
    var pushed := hs + [Of(start, end)];
    Dates.LessIsStrictTotalOrder();
    Merge.PassCovers(pushed, Dates.Less, false, (), date);
    IsHolidayCovers(pushed, date);
    IsHolidayCovers(Add(hs, start, end), date);
    IsHolidayCovers(hs, date);
    Merge.CoversPush(hs, Of(start, end), Dates.Less, false, (), date);
  }

  /** A holiday that starts on the day the only other one ends is kept apart from
      it: the pass merges only a start strictly inside another span. */
  lemma AddTouching(start: Dates.Date, middle: Dates.Date, end: Dates.Date)
    requires !Dates.Less(middle, start)
    ensures Add([Of(start, middle)], middle, end) == [Of(start, middle), Of(middle, end)]
  {
    Dates.LessIsStrictTotalOrder();
    Merge.PairSettled(Of(start, middle), Of(middle, end), Dates.Less, false);
    Merge.PassSettled([Of(start, middle), Of(middle, end)], Dates.Less, false);
    assert [Of(start, middle)] + [Of(middle, end)] == [Of(start, middle), Of(middle, end)];
  }

  function Span(y0: Dates.U16, m0: Dates.U8, d0: Dates.U8, y1: Dates.U16, m1: Dates.U8, d1: Dates.U8): Holiday {
    Of(Dates.Date(y0, m0, d0), Dates.Date(y1, m1, d1))
  }

  /** The `recheck` unit test: each new holiday overlaps the merged one, which
      grows to 2009-05-01 .. 2020-10-01. */
  lemma RecheckExample()
    ensures Add([], Dates.Date(2010, 6, 1), Dates.Date(2010, 8, 1))
         == [Span(2010, 6, 1, 2010, 8, 1)]
    ensures Add(Add([], Dates.Date(2010, 6, 1), Dates.Date(2010, 8, 1)),
                Dates.Date(2010, 7, 1), Dates.Date(2010, 9, 1))
         == [Span(2010, 6, 1, 2010, 9, 1)]
    ensures Add(Add(Add([], Dates.Date(2010, 6, 1), Dates.Date(2010, 8, 1)),
                Dates.Date(2010, 7, 1), Dates.Date(2010, 9, 1)),
                Dates.Date(2010, 5, 1), Dates.Date(2010, 10, 1))
         == [Span(2010, 5, 1, 2010, 10, 1)]
    ensures Add(Add(Add(Add([], Dates.Date(2010, 6, 1), Dates.Date(2010, 8, 1)),
                Dates.Date(2010, 7, 1), Dates.Date(2010, 9, 1)),
                Dates.Date(2010, 5, 1), Dates.Date(2010, 10, 1)),
                Dates.Date(2009, 5, 1), Dates.Date(2020, 10, 1))
         == [Span(2009, 5, 1, 2020, 10, 1)]
  {
    var hs: seq<Holiday> := [];
    AddPassesTwice(hs, Dates.Date(2010, 6, 1), Dates.Date(2010, 8, 1));
    assert hs + [Span(2010, 6, 1, 2010, 8, 1)] == [Span(2010, 6, 1, 2010, 8, 1)];
    Merge.PassOne(Span(2010, 6, 1, 2010, 8, 1), Dates.Less, false);
    hs := Add(hs, Dates.Date(2010, 6, 1), Dates.Date(2010, 8, 1));
    assert hs == [Span(2010, 6, 1, 2010, 8, 1)];
    AddPassesTwice(hs, Dates.Date(2010, 7, 1), Dates.Date(2010, 9, 1));
    assert hs + [Span(2010, 7, 1, 2010, 9, 1)] == [Span(2010, 6, 1, 2010, 8, 1), Span(2010, 7, 1, 2010, 9, 1)];
    Merge.PassPair(Span(2010, 6, 1, 2010, 8, 1), Span(2010, 7, 1, 2010, 9, 1), Dates.Less, false);
    hs := Add(hs, Dates.Date(2010, 7, 1), Dates.Date(2010, 9, 1));
    assert hs == [Span(2010, 6, 1, 2010, 9, 1)];
    AddPassesTwice(hs, Dates.Date(2010, 5, 1), Dates.Date(2010, 10, 1));
    assert hs + [Span(2010, 5, 1, 2010, 10, 1)] == [Span(2010, 6, 1, 2010, 9, 1), Span(2010, 5, 1, 2010, 10, 1)];
    Merge.PassPair(Span(2010, 6, 1, 2010, 9, 1), Span(2010, 5, 1, 2010, 10, 1), Dates.Less, false);
    hs := Add(hs, Dates.Date(2010, 5, 1), Dates.Date(2010, 10, 1));
    assert hs == [Span(2010, 5, 1, 2010, 10, 1)];
    AddPassesTwice(hs, Dates.Date(2009, 5, 1), Dates.Date(2020, 10, 1));
    assert hs + [Span(2009, 5, 1, 2020, 10, 1)] == [Span(2010, 5, 1, 2010, 10, 1), Span(2009, 5, 1, 2020, 10, 1)];
    Merge.PassPair(Span(2010, 5, 1, 2010, 10, 1), Span(2009, 5, 1, 2020, 10, 1), Dates.Less, false);
    hs := Add(hs, Dates.Date(2009, 5, 1), Dates.Date(2020, 10, 1));
    assert hs == [Span(2009, 5, 1, 2020, 10, 1)];
  }

  /** The `is_holiday` unit test. */
  lemma IsHolidayExample()
    ensures IsHoliday(Add([], Dates.Date(2010, 6, 1), Dates.Date(2010, 8, 1)), Dates.Date(2010, 7, 1))
  {
    var hs: seq<Holiday> := [];
    AddPassesTwice(hs, Dates.Date(2010, 6, 1), Dates.Date(2010, 8, 1));
    assert hs + [Span(2010, 6, 1, 2010, 8, 1)] == [Span(2010, 6, 1, 2010, 8, 1)];
    Merge.PassOne(Span(2010, 6, 1, 2010, 8, 1), Dates.Less, false);
    hs := Add(hs, Dates.Date(2010, 6, 1), Dates.Date(2010, 8, 1));
    assert hs == [Span(2010, 6, 1, 2010, 8, 1)];
  }

  /** January to June, then June to December: they only touch, so both stay. */
  lemma TouchingExample()
    ensures Add(Add([], Dates.Date(2020, 1, 1), Dates.Date(2020, 6, 1)),
                Dates.Date(2020, 6, 1), Dates.Date(2020, 12, 1))
         == [Span(2020, 1, 1, 2020, 6, 1), Span(2020, 6, 1, 2020, 12, 1)]
  {
    var hs: seq<Holiday> := [];
    AddPassesTwice(hs, Dates.Date(2020, 1, 1), Dates.Date(2020, 6, 1));
    assert hs + [Span(2020, 1, 1, 2020, 6, 1)] == [Span(2020, 1, 1, 2020, 6, 1)];
    Merge.PassOne(Span(2020, 1, 1, 2020, 6, 1), Dates.Less, false);
    hs := Add(hs, Dates.Date(2020, 1, 1), Dates.Date(2020, 6, 1));
    assert hs == [Span(2020, 1, 1, 2020, 6, 1)];
    AddPassesTwice(hs, Dates.Date(2020, 6, 1), Dates.Date(2020, 12, 1));
    assert hs + [Span(2020, 6, 1, 2020, 12, 1)] == [Span(2020, 1, 1, 2020, 6, 1), Span(2020, 6, 1, 2020, 12, 1)];
    Merge.PassPair(Span(2020, 1, 1, 2020, 6, 1), Span(2020, 6, 1, 2020, 12, 1), Dates.Less, false);
    hs := Add(hs, Dates.Date(2020, 6, 1), Dates.Date(2020, 12, 1));
    assert hs == [Span(2020, 1, 1, 2020, 6, 1), Span(2020, 6, 1, 2020, 12, 1)];
  }

  /** January to August, then July to September: one holiday, January to September. */
  lemma OverlapExample()
    ensures Add(Add([], Dates.Date(2020, 1, 1), Dates.Date(2020, 8, 1)),
                Dates.Date(2020, 7, 1), Dates.Date(2020, 9, 1))
         == [Span(2020, 1, 1, 2020, 9, 1)]
  {
    var hs: seq<Holiday> := [];
    AddPassesTwice(hs, Dates.Date(2020, 1, 1), Dates.Date(2020, 8, 1));
    assert hs + [Span(2020, 1, 1, 2020, 8, 1)] == [Span(2020, 1, 1, 2020, 8, 1)];
    Merge.PassOne(Span(2020, 1, 1, 2020, 8, 1), Dates.Less, false);
    hs := Add(hs, Dates.Date(2020, 1, 1), Dates.Date(2020, 8, 1));
    assert hs == [Span(2020, 1, 1, 2020, 8, 1)];
    AddPassesTwice(hs, Dates.Date(2020, 7, 1), Dates.Date(2020, 9, 1));
    assert hs + [Span(2020, 7, 1, 2020, 9, 1)] == [Span(2020, 1, 1, 2020, 8, 1), Span(2020, 7, 1, 2020, 9, 1)];
    Merge.PassPair(Span(2020, 1, 1, 2020, 8, 1), Span(2020, 7, 1, 2020, 9, 1), Dates.Less, false);
    hs := Add(hs, Dates.Date(2020, 7, 1), Dates.Date(2020, 9, 1));
    assert hs == [Span(2020, 1, 1, 2020, 9, 1)];
  }
}

=== FILE: legacy_application.dfy ===
/** The older generation of `Application` (`src/application.rs`): the same
    holiday list, over courses of the older kind. */
module LegacyApplications {
  import Dates
  import LegacyCourses
  import Holidays
  import Vecs

  datatype Application = Application(courses: seq<LegacyCourses.Course>, holidays: seq<Holidays.Holiday>)

  /** `Application::new`: no courses and no holidays. */
  function New(): (a: Application)
    ensures a.courses == [] && a.holidays == []
  {
    Application([], [])
  }

  /** `new_course`: appends a course with the placeholder texts the front-end
      shows for a fresh course. */
  function NewCourse(a: Application): (r: Application)
    ensures r.holidays == a.holidays
    ensures |r.courses| == |a.courses| + 1 && r.courses[..|a.courses|] == a.courses
    ensures r.courses[|a.courses|] == LegacyCourses.New("Name", "Teacher", "Room")
  {
    a.(courses := a.courses + [LegacyCourses.New("Name", "Teacher", "Room")])
  }

  /** `add_course`: appends the given course. */
  function AddCourse(a: Application, c: LegacyCourses.Course): (r: Application)
    ensures r.holidays == a.holidays
    ensures |r.courses| == |a.courses| + 1 && r.courses[..|a.courses|] == a.courses
    ensures r.courses[|a.courses|] == c
  {
    a.(courses := a.courses + [c])
  }

  /** `rm_course`: removes exactly course `index` (Rust panics past the end). */
  function RmCourse(a: Application, index: nat): (r: Application)
    requires index < |a.courses|
    ensures r.holidays == a.holidays
    ensures |r.courses| == |a.courses| - 1
    ensures forall k :: 0 <= k < index ==> r.courses[k] == a.courses[k]
    ensures forall k :: index <= k < |r.courses| ==> r.courses[k] == a.courses[k + 1]
  {
    a.(courses := Vecs.Remove(a.courses, index))
  }

  /** `recheck_holidays`. */
  function RecheckHolidays(a: Application): (r: Application)
    ensures r.courses == a.courses
    ensures |r.holidays| <= |a.holidays|
  {
    a.(holidays := Holidays.Recheck(a.holidays))
  }

  /** `is_holiday`. */
  function IsHoliday(a: Application, date: Dates.Date): (r: bool)
    ensures r <==> exists m :: 0 <= m < |a.holidays| && Dates.IsBetween(date, a.holidays[m].start, a.holidays[m].end)
  {
    Holidays.IsHoliday(a.holidays, date)
  }

  /** `add_holiday`. */
  function AddHoliday(a: Application, start: Dates.Date, end: Dates.Date): (r: Application)
    ensures r.courses == a.courses
    ensures 0 < |r.holidays| <= |a.holidays| + 1
  {
    a.(holidays := Holidays.Add(a.holidays, start, end))
  }

  /** `rm_holiday`: removes exactly holiday `index` (Rust panics past the end). */
  function RmHoliday(a: Application, index: nat): (r: Application)
    requires index < |a.holidays|
    ensures r.courses == a.courses
    ensures |r.holidays| == |a.holidays| - 1
    ensures forall k :: 0 <= k < index ==> r.holidays[k] == a.holidays[k]
    ensures forall k :: index <= k < |r.holidays| ==> r.holidays[k] == a.holidays[k + 1]
  {
    a.(holidays := Holidays.Remove(a.holidays, index))
  }

  /** Adding a holiday leaves the courses alone, and afterwards a date is a holiday
      exactly when it was one before or lies strictly inside the new pair. */
  lemma AddHolidayIsHoliday(a: Application, start: Dates.Date, end: Dates.Date, date: Dates.Date)
    ensures IsHoliday(AddHoliday(a, start, end), date) <==> IsHoliday(a, date) || Dates.IsBetween(date, start, end)
  {
    Holidays.AddIsHoliday(a.holidays, start, end, date);
  }

  /** The `recheck` and `is_holiday` unit tests of the older module. */
  lemma Examples()
    ensures AddHoliday(AddHoliday(AddHoliday(AddHoliday(New(),
              Dates.Date(2010, 6, 1), Dates.Date(2010, 8, 1)),
              Dates.Date(2010, 7, 1), Dates.Date(2010, 9, 1)),
              Dates.Date(2010, 5, 1), Dates.Date(2010, 10, 1)),
              Dates.Date(2009, 5, 1), Dates.Date(2020, 10, 1)).holidays
         == [Holidays.Span(2009, 5, 1, 2020, 10, 1)]
    ensures IsHoliday(AddHoliday(New(), Dates.Date(2010, 6, 1), Dates.Date(2010, 8, 1)), Dates.Date(2010, 7, 1))
  {
    Holidays.RecheckExample();
    Holidays.IsHolidayExample();
  }
}

=== FILE: legacy_course.dfy ===
/** The older generation of `Course` (`src/course.rs`). It holds the same data as
    the newer course, but its recheck pass compares the meeting times of ALL days
    with each other: the day of a meeting is never looked at. */
module LegacyCourses {
  import Dates
  import Times
  import Days
  import LegacyTasks
  import Merge
  import Vecs

  type Slot = Merge.Interval<Days.Day, Times.Time>

  datatype Course = Course(name: string, teacher: string, room: string, times: seq<Slot>, tasks: seq<LegacyTasks.Task>)

  /** `Course::new`: the three strings, no meeting times and no tasks. */
  function New(name: string, teacher: string, room: string): (c: Course)
    ensures c.name == name && c.teacher == teacher && c.room == room
    ensures c.times == [] && c.tasks == []
  {
    Course(name, teacher, room, [], [])
  }

  /** `add_task`: appends a fresh task and leaves the others alone. */
  function AddTask(c: Course, name: string, desc: string, due: Dates.Date): (r: Course)
    ensures r == c.(tasks := r.tasks)
    ensures |r.tasks| == |c.tasks| + 1 && r.tasks[..|c.tasks|] == c.tasks
    ensures r.tasks[|c.tasks|] == LegacyTasks.New(name, desc, due)
  {
    c.(tasks := c.tasks + [LegacyTasks.New(name, desc, due)])
  }

  /** `remove_task`: removes exactly task `index` (Rust panics past the end). */
  function RemoveTask(c: Course, index: nat): (r: Course)
    requires index < |c.tasks|
    ensures r == c.(tasks := r.tasks)
    ensures |r.tasks| == |c.tasks| - 1
    ensures forall k :: 0 <= k < index ==> r.tasks[k] == c.tasks[k]
    ensures forall k :: index <= k < |r.tasks| ==> r.tasks[k] == c.tasks[k + 1]
  {
    c.(tasks := Vecs.Remove(c.tasks, index))
  }

  /** `recheck_times`: the overlap pass over all meetings, whatever their day. */
  function RecheckTimes(c: Course): (r: Course)
    ensures r == c.(times := r.times)
    ensures |r.times| <= |c.times|
  {
    c.(times := Merge.Pass(c.times, Times.Less, false))
  }

  /** `add_time`: push the meeting, then run the pass twice. */
  function AddTime(c: Course, day: Days.Day, start: Times.Time, end: Times.Time): (r: Course)
    ensures r == c.(times := r.times)
    ensures 0 < |r.times| <= |c.times| + 1
  {
    RecheckTimes(RecheckTimes(c.(times := c.times + [Merge.Interval(day, start, end)])))
  }

  /** `add_time` in terms of the shared pass: the pushed list, passed over twice. */
  lemma AddTimePassesTwice(c: Course, day: Days.Day, start: Times.Time, end: Times.Time)
    ensures AddTime(c, day, start, end).times
         == Merge.PassTwice(c.times + [Merge.Interval(day, start, end)], Times.Less, false)
  {
  }

  /** `rm_time`: removes exactly meeting `index` (Rust panics past the end). */
  function RmTime(c: Course, index: nat): (r: Course)
    requires index < |c.times|
    ensures r == c.(times := r.times)
    ensures |r.times| == |c.times| - 1
    ensures forall k :: 0 <= k < index ==> r.times[k] == c.times[k]
    ensures forall k :: index <= k < |r.times| ==> r.times[k] == c.times[k + 1]
  {
    c.(times := Vecs.Remove(c.times, index))
  }

  /** `is_on_day`: the early-returning scan over the meetings. */
  method IsOnDay(c: Course, expected: Days.Day) returns (r: bool)
    ensures r <==> Merge.HasKey(c.times, expected)
  {
    var k := 0;
    while k < |c.times|
      invariant k <= |c.times|
      invariant forall m :: 0 <= m < k ==> c.times[m].key != expected
    {
      if c.times[k].key == expected {
        return true;
      }
      k := k + 1;
    }
    return false;
  }

  /** Some meeting, on whatever day, has `t` strictly inside its span. This is the
      notion of "busy" the day-blind pass preserves. */
  predicate BusyAt(c: Course, t: Times.Time) {
    exists m :: 0 <= m < |c.times| && Times.IsBetween(t, c.times[m].start, c.times[m].end)
  }

  /** `BusyAt` is the shared coverage predicate with scoping switched off. */
  lemma BusyAtCovers(c: Course, t: Times.Time, key: Days.Day)
    ensures BusyAt(c, t) <==> Merge.Covers(c.times, Times.Less, false, key, t)
  {
    if BusyAt(c, t) {
      var m :| 0 <= m < |c.times| && Times.IsBetween(t, c.times[m].start, c.times[m].end);
      assert Merge.Inside(c.times[m], Times.Less, false, key, t);
    }
  }

  /** The pass keeps every meeting's day and start, keeps survivors in order, only
      moves ends later (to some input end) and never adds meetings. */
  lemma RecheckTimesDescends(c: Course) returns (idx: seq<nat>)
    ensures Merge.Descends(c.times, RecheckTimes(c).times, idx, Times.Less)
  {
    Times.LessIsStrictTotalOrder();
    idx := Merge.PassDescends(c.times, Times.Less, false);
  }

  /** The day-blind pass neither loses nor invents a busy time of day. */
  lemma RecheckTimesKeepsBusy(c: Course, t: Times.Time)
    ensures BusyAt(RecheckTimes(c), t) <==> BusyAt(c, t)
  {
    Times.LessIsStrictTotalOrder();
    Merge.PassCovers(c.times, Times.Less, false, Days.Sunday, t);
    BusyAtCovers(c, t, Days.Sunday);
    BusyAtCovers(RecheckTimes(c), t, Days.Sunday);
  }

  /** After `add_time`, a time of day is busy exactly when it was before or lies
      strictly inside the new meeting. */
  lemma AddTimeBusy(c: Course, day: Days.Day, start: Times.Time, end: Times.Time, t: Times.Time)
    ensures BusyAt(AddTime(c, day, start, end), t) <==> BusyAt(c, t) || Times.IsBetween(t, start, end)
  {
    var pushed := c.times + [Merge.Interval(day, start, end)];
    var p := c.(times := pushed);
    Times.LessIsStrictTotalOrder();
    Merge.PassCovers(pushed, Times.Less, false, Days.Sunday, t);
    BusyAtCovers(p, t, Days.Sunday);
    BusyAtCovers(AddTime(c, day, start, end), t, Days.Sunday);
    BusyAtCovers(c, t, Days.Sunday);
    Merge.CoversPush(c.times, Merge.Interval(day, start, end), Times.Less, false, Days.Sunday, t);
  }

  /** The pass never invents a day: every day a course meets on after `add_time`
      is the new meeting's day or one it met on before. (The converse fails; see
      `AddTimeLosesDay`.) */
  lemma AddTimeDays(c: Course, day: Days.Day, start: Times.Time, end: Times.Time, other: Days.Day)
    ensures Merge.HasKey(AddTime(c, day, start, end).times, other) ==> Merge.HasKey(c.times, other) || other == day
  {
    var pushed := c.times + [Merge.Interval(day, start, end)];
    var r := AddTime(c, day, start, end).times;
    Times.LessIsStrictTotalOrder();
    var idx := Merge.PassTwiceDescends(pushed, Times.Less, false);
    if Merge.HasKey(r, other) {
      var m :| 0 <= m < |r| && r[m].key == other;
      var k := idx[m];
      assert pushed[k].key == other;
      if k < |c.times| {
        assert c.times[k].key == other;
      }
    }
  }

  /** While all meetings fall on one day, the older course behaves exactly like
      the newer, day-scoped one. */
  lemma AddTimeOneDay(c: Course, day: Days.Day, start: Times.Time, end: Times.Time)
    requires Merge.OneKey(c.times, day)
    ensures AddTime(c, day, start, end).times
         == Merge.PassTwice(c.times + [Merge.Interval(day, start, end)], Times.Less, true)
  {
    var pushed := c.times + [Merge.Interval(day, start, end)];
    assert Merge.OneKey(pushed, day) by {
      forall m | 0 <= m < |pushed| ensures pushed[m].key == day {
        if m < |c.times| { assert pushed[m] == c.times[m]; }
      }
    }
    Merge.PassOneKey(pushed, Times.Less, day);
  }

  function Math(): Course {
    New("Math", "Willis", "S37")
  }

  function Meet(day: Days.Day, h0: Times.U8, m0: Times.U8, h1: Times.U8, m1: Times.U8): Slot {
    Merge.Interval(day, Times.Time(h0, m0), Times.Time(h1, m1))
  }

  /** A Monday meeting that starts inside a Sunday one is swallowed by it: the
      Sunday span is kept unchanged, and the course no longer meets on Monday
      although a Monday meeting was just added. */
  lemma AddTimeLosesDay()
    ensures AddTime(AddTime(Math(), Days.Sunday, Times.Time(9, 0), Times.Time(12, 0)),
                    Days.Monday, Times.Time(10, 0), Times.Time(11, 0)).times
         == [Meet(Days.Sunday, 9, 0, 12, 0)]
    ensures !Merge.HasKey(AddTime(AddTime(Math(), Days.Sunday, Times.Time(9, 0), Times.Time(12, 0)),
                                  Days.Monday, Times.Time(10, 0), Times.Time(11, 0)).times, Days.Monday)
  {
    var c := Math();
    AddTimePassesTwice(c, Days.Sunday, Times.Time(9, 0), Times.Time(12, 0));
    assert c.times + [Meet(Days.Sunday, 9, 0, 12, 0)] == [Meet(Days.Sunday, 9, 0, 12, 0)];
    Merge.PassOne(Meet(Days.Sunday, 9, 0, 12, 0), Times.Less, false);
    c := AddTime(c, Days.Sunday, Times.Time(9, 0), Times.Time(12, 0));
    assert c.times == [Meet(Days.Sunday, 9, 0, 12, 0)];
    AddTimePassesTwice(c, Days.Monday, Times.Time(10, 0), Times.Time(11, 0));
    assert c.times + [Meet(Days.Monday, 10, 0, 11, 0)] == [Meet(Days.Sunday, 9, 0, 12, 0), Meet(Days.Monday, 10, 0, 11, 0)];
    Merge.PassPair(Meet(Days.Sunday, 9, 0, 12, 0), Meet(Days.Monday, 10, 0, 11, 0), Times.Less, false);
    c := AddTime(c, Days.Monday, Times.Time(10, 0), Times.Time(11, 0));
    assert c.times == [Meet(Days.Sunday, 9, 0, 12, 0)];
  }

  /** The `recheck` unit test of the older `course` module. */
  lemma RecheckExample()
    ensures AddTime(AddTime(Math(), Days.Sunday, Times.Time(9, 0), Times.Time(11, 0)),
                    Days.Sunday, Times.Time(10, 0), Times.Time(12, 0)).times
         == [Meet(Days.Sunday, 9, 0, 12, 0)]
  {
    var c := Math();
    AddTimePassesTwice(c, Days.Sunday, Times.Time(9, 0), Times.Time(11, 0));
    assert c.times + [Meet(Days.Sunday, 9, 0, 11, 0)] == [Meet(Days.Sunday, 9, 0, 11, 0)];
    Merge.PassOne(Meet(Days.Sunday, 9, 0, 11, 0), Times.Less, false);
    c := AddTime(c, Days.Sunday, Times.Time(9, 0), Times.Time(11, 0));
    assert c.times == [Meet(Days.Sunday, 9, 0, 11, 0)];
    AddTimePassesTwice(c, Days.Sunday, Times.Time(10, 0), Times.Time(12, 0));
    assert c.times + [Meet(Days.Sunday, 10, 0, 12, 0)] == [Meet(Days.Sunday, 9, 0, 11, 0), Meet(Days.Sunday, 10, 0, 12, 0)];
    Merge.PassPair(Meet(Days.Sunday, 9, 0, 11, 0), Meet(Days.Sunday, 10, 0, 12, 0), Times.Less, false);
    c := AddTime(c, Days.Sunday, Times.Time(10, 0), Times.Time(12, 0));
    assert c.times == [Meet(Days.Sunday, 9, 0, 12, 0)];
  }

  /** The `add_time` unit test of the older `course` module, in its three stages:
      eight meetings on one Sunday end up as the single span 6:00 to 17:00. */
  lemma AddTimeExample()
    ensures AddTime(AddTime(AddTime(AddTime(AddTime(AddTime(AddTime(AddTime(Math(),
              Days.Sunday, Times.Time(9, 0), Times.Time(10, 0)),
              Days.Sunday, Times.Time(9, 30), Times.Time(12, 0)),
              Days.Sunday, Times.Time(13, 0), Times.Time(15, 0)),
              Days.Sunday, Times.Time(11, 0), Times.Time(14, 0)),
              Days.Sunday, Times.Time(14, 0), Times.Time(16, 0)),
              Days.Sunday, Times.Time(14, 0), Times.Time(17, 0)),
              Days.Sunday, Times.Time(7, 0), Times.Time(13, 0)),
              Days.Sunday, Times.Time(6, 0), Times.Time(13, 0)).times
         == [Meet(Days.Sunday, 6, 0, 17, 0)]
  {
    AddTimeStage1();
    var c := AddTime(AddTime(Math(),
               Days.Sunday, Times.Time(9, 0), Times.Time(10, 0)),
               Days.Sunday, Times.Time(9, 30), Times.Time(12, 0));
    AddTimeStage2(c);
    c := AddTime(AddTime(c,
           Days.Sunday, Times.Time(13, 0), Times.Time(15, 0)),
           Days.Sunday, Times.Time(11, 0), Times.Time(14, 0));
    AddTimeStage3(c);
  }

  lemma AddTimeStage1()
    ensures AddTime(AddTime(Math(),
              Days.Sunday, Times.Time(9, 0), Times.Time(10, 0)),
              Days.Sunday, Times.Time(9, 30), Times.Time(12, 0)).times
         == [Meet(Days.Sunday, 9, 0, 12, 0)]
  {
    var c := Math();
    AddTimePassesTwice(c, Days.Sunday, Times.Time(9, 0), Times.Time(10, 0));
    assert c.times + [Meet(Days.Sunday, 9, 0, 10, 0)] == [Meet(Days.Sunday, 9, 0, 10, 0)];
    Merge.PassOne(Meet(Days.Sunday, 9, 0, 10, 0), Times.Less, false);
    c := AddTime(c, Days.Sunday, Times.Time(9, 0), Times.Time(10, 0));
    assert c.times == [Meet(Days.Sunday, 9, 0, 10, 0)];
    AddTimePassesTwice(c, Days.Sunday, Times.Time(9, 30), Times.Time(12, 0));
    assert c.times + [Meet(Days.Sunday, 9, 30, 12, 0)] == [Meet(Days.Sunday, 9, 0, 10, 0), Meet(Days.Sunday, 9, 30, 12, 0)];
    Merge.PassPair(Meet(Days.Sunday, 9, 0, 10, 0), Meet(Days.Sunday, 9, 30, 12, 0), Times.Less, false);
    c := AddTime(c, Days.Sunday, Times.Time(9, 30), Times.Time(12, 0));
    assert c.times == [Meet(Days.Sunday, 9, 0, 12, 0)];
  }

  lemma AddTimeStage2(c0: Course)
    requires c0.times == [Meet(Days.Sunday, 9, 0, 12, 0)]
    ensures AddTime(AddTime(c0,
              Days.Sunday, Times.Time(13, 0), Times.Time(15, 0)),
              Days.Sunday, Times.Time(11, 0), Times.Time(14, 0)).times
         == [Meet(Days.Sunday, 9, 0, 15, 0)]
  {
    var c := c0;
    AddTimePassesTwice(c, Days.Sunday, Times.Time(13, 0), Times.Time(15, 0));
    assert c.times + [Meet(Days.Sunday, 13, 0, 15, 0)] == [Meet(Days.Sunday, 9, 0, 12, 0), Meet(Days.Sunday, 13, 0, 15, 0)];
    Merge.PassPair(Meet(Days.Sunday, 9, 0, 12, 0), Meet(Days.Sunday, 13, 0, 15, 0), Times.Less, false);
    c := AddTime(c, Days.Sunday, Times.Time(13, 0), Times.Time(15, 0));
    assert c.times == [Meet(Days.Sunday, 9, 0, 12, 0), Meet(Days.Sunday, 13, 0, 15, 0)];
    AddTimePassesTwice(c, Days.Sunday, Times.Time(11, 0), Times.Time(14, 0));
    assert c.times + [Meet(Days.Sunday, 11, 0, 14, 0)] == [Meet(Days.Sunday, 9, 0, 12, 0), Meet(Days.Sunday, 13, 0, 15, 0), Meet(Days.Sunday, 11, 0, 14, 0)];
    assert Merge.Absorb([Meet(Days.Sunday, 9, 0, 12, 0), Meet(Days.Sunday, 13, 0, 15, 0), Meet(Days.Sunday, 11, 0, 14, 0)], 0, 2, Times.Less) == [Meet(Days.Sunday, 9, 0, 14, 0), Meet(Days.Sunday, 13, 0, 15, 0)];
    assert Merge.Loop([Meet(Days.Sunday, 9, 0, 12, 0), Meet(Days.Sunday, 13, 0, 15, 0), Meet(Days.Sunday, 11, 0, 14, 0)], Times.Less, false, 3, 0, 0, 3, 3) == Merge.Loop([Meet(Days.Sunday, 9, 0, 14, 0), Meet(Days.Sunday, 13, 0, 15, 0)], Times.Less, false, 3, 0, 3, 3, 3);
    assert Merge.Loop([Meet(Days.Sunday, 9, 0, 14, 0), Meet(Days.Sunday, 13, 0, 15, 0)], Times.Less, false, 3, 0, 3, 3, 3) == [Meet(Days.Sunday, 9, 0, 14, 0), Meet(Days.Sunday, 13, 0, 15, 0)];
    assert Merge.Pass([Meet(Days.Sunday, 9, 0, 12, 0), Meet(Days.Sunday, 13, 0, 15, 0), Meet(Days.Sunday, 11, 0, 14, 0)], Times.Less, false) == [Meet(Days.Sunday, 9, 0, 14, 0), Meet(Days.Sunday, 13, 0, 15, 0)];
    Merge.PassPair(Meet(Days.Sunday, 9, 0, 14, 0), Meet(Days.Sunday, 13, 0, 15, 0), Times.Less, false);
    c := AddTime(c, Days.Sunday, Times.Time(11, 0), Times.Time(14, 0));
    assert c.times == [Meet(Days.Sunday, 9, 0, 15, 0)];
  }

  lemma AddTimeStage3(c0: Course)
    requires c0.times == [Meet(Days.Sunday, 9, 0, 15, 0)]
    ensures AddTime(AddTime(AddTime(AddTime(c0,
              Days.Sunday, Times.Time(14, 0), Times.Time(16, 0)),
              Days.Sunday, Times.Time(14, 0), Times.Time(17, 0)),
              Days.Sunday, Times.Time(7, 0), Times.Time(13, 0)),
              Days.Sunday, Times.Time(6, 0), Times.Time(13, 0)).times
         == [Meet(Days.Sunday, 6, 0, 17, 0)]
  {
    var c := c0;
    AddTimePassesTwice(c, Days.Sunday, Times.Time(14, 0), Times.Time(16, 0));
    assert c.times + [Meet(Days.Sunday, 14, 0, 16, 0)] == [Meet(Days.Sunday, 9, 0, 15, 0), Meet(Days.Sunday, 14, 0, 16, 0)];
    Merge.PassPair(Meet(Days.Sunday, 9, 0, 15, 0), Meet(Days.Sunday, 14, 0, 16, 0), Times.Less, false);
    c := AddTime(c, Days.Sunday, Times.Time(14, 0), Times.Time(16, 0));
    assert c.times == [Meet(Days.Sunday, 9, 0, 16, 0)];
    AddTimePassesTwice(c, Days.Sunday, Times.Time(14, 0), Times.Time(17, 0));
    assert c.times + [Meet(Days.Sunday, 14, 0, 17, 0)] == [Meet(Days.Sunday, 9, 0, 16, 0), Meet(Days.Sunday, 14, 0, 17, 0)];
    Merge.PassPair(Meet(Days.Sunday, 9, 0, 16, 0), Meet(Days.Sunday, 14, 0, 17, 0), Times.Less, false);
    c := AddTime(c, Days.Sunday, Times.Time(14, 0), Times.Time(17, 0));
    assert c.times == [Meet(Days.Sunday, 9, 0, 17, 0)];
    AddTimePassesTwice(c, Days.Sunday, Times.Time(7, 0), Times.Time(13, 0));
    assert c.times + [Meet(Days.Sunday, 7, 0, 13, 0)] == [Meet(Days.Sunday, 9, 0, 17, 0), Meet(Days.Sunday, 7, 0, 13, 0)];
    Merge.PassPair(Meet(Days.Sunday, 9, 0, 17, 0), Meet(Days.Sunday, 7, 0, 13, 0), Times.Less, false);
    c := AddTime(c, Days.Sunday, Times.Time(7, 0), Times.Time(13, 0));
    assert c.times == [Meet(Days.Sunday, 7, 0, 17, 0)];
    AddTimePassesTwice(c, Days.Sunday, Times.Time(6, 0), Times.Time(13, 0));
    assert c.times + [Meet(Days.Sunday, 6, 0, 13, 0)] == [Meet(Days.Sunday, 7, 0, 17, 0), Meet(Days.Sunday, 6, 0, 13, 0)];
    Merge.PassPair(Meet(Days.Sunday, 7, 0, 17, 0), Meet(Days.Sunday, 6, 0, 13, 0), Times.Less, false);
    c := AddTime(c, Days.Sunday, Times.Time(6, 0), Times.Time(13, 0));
    assert c.times == [Meet(Days.Sunday, 6, 0, 17, 0)];
  }
}

=== FILE: legacy_task.dfy ===
/** The older generation of `Task` (`src/task.rs`), kept as its own type: the
    same checklist rules as the newer task, without `is_complete_str`. Steps are
    the same `(bool, String)` pairs, so the step type, the placeholder and the
    open-step scan are shared with the newer module. */
module LegacyTasks {
  import Dates
  import Vecs
  import Tasks

  type Step = Tasks.Step

  datatype Task = Task(name: string, desc: string, due: Dates.Date, steps: seq<Step>)

  /** `Task::new`: only the placeholder step, so a new task is not complete. */
  function New(name: string, desc: string, due: Dates.Date): (t: Task)
    ensures t.name == name && t.desc == desc && t.due == due
    ensures t.steps == [Tasks.Placeholder]
    ensures !IsComplete(t)
  {
    Task(name, desc, due, [Tasks.Placeholder])
  }

  /** `is_complete`: no step is left open. */
  function IsComplete(t: Task): (r: bool)
    ensures r <==> !exists k :: 0 <= k < |t.steps| && !t.steps[k].done
  {
    !Tasks.AnyOpen(t.steps)
  }

  /** `toggle_step`: flips the flag of step `index` and nothing else; an index past
      the end is ignored. */
  function ToggleStep(t: Task, index: nat): (r: Task)
    ensures r.name == t.name && r.desc == t.desc && r.due == t.due
    ensures |r.steps| == |t.steps|
    ensures forall k :: 0 <= k < |t.steps| ==> r.steps[k].text == t.steps[k].text
    ensures forall k :: 0 <= k < |t.steps| ==> (r.steps[k].done <==> (t.steps[k].done != (k == index)))
    ensures |t.steps| <= index ==> r == t
  {
    if index < |t.steps| then
      t.(steps := t.steps[index := Tasks.Step(!t.steps[index].done, t.steps[index].text)])
    else t
  }

  /** `add_step`: drops a leading placeholder, then appends an open step labelled
      `desc`. Rust indexes `steps[0]`, so the list must not be empty. */
  function AddStep(t: Task, desc: string): (r: Task)
    requires 0 < |t.steps|
    ensures r.name == t.name && r.desc == t.desc && r.due == t.due
    ensures 0 < |r.steps| && r.steps[|r.steps| - 1] == Tasks.Step(false, desc)
    ensures t.steps[0] == Tasks.Placeholder ==> r.steps[..|r.steps| - 1] == t.steps[1..]
    ensures t.steps[0] != Tasks.Placeholder ==> r.steps[..|r.steps| - 1] == t.steps
    ensures !IsComplete(r)
  {
    var kept := if t.steps[0] == Tasks.Placeholder then Vecs.Remove(t.steps, 0) else t.steps;
    assert t.steps[0] == Tasks.Placeholder ==> kept == t.steps[1..];
    t.(steps := kept + [Tasks.Step(false, desc)])
  }

  /** `rm_step`: removes exactly step `index`, and puts the placeholder back when
      that was the last step. Rust's `remove` panics past the end. */
  function RmStep(t: Task, index: nat): (r: Task)
    requires index < |t.steps|
    ensures r.name == t.name && r.desc == t.desc && r.due == t.due
    ensures 1 < |t.steps| ==> |r.steps| == |t.steps| - 1
    ensures 1 < |t.steps| ==> forall k :: 0 <= k < index ==> r.steps[k] == t.steps[k]
    ensures 1 < |t.steps| ==> forall k :: index <= k < |r.steps| ==> r.steps[k] == t.steps[k + 1]
    ensures |t.steps| == 1 ==> r.steps == [Tasks.Placeholder]
  {
    var rest := Vecs.Remove(t.steps, index);
    if |rest| == 0 then t.(steps := [Tasks.Placeholder]) else t.(steps := rest)
  }

  /** Toggling the same step twice restores the task. */
  lemma ToggleStepTwice(t: Task, index: nat)
    ensures ToggleStep(ToggleStep(t, index), index) == t
  {
    var r := ToggleStep(ToggleStep(t, index), index);
    assert r.steps == t.steps;
  }

  /** The checklist is never empty: `new` starts it non-empty and every step
      operation keeps it so. */
  lemma StepsNeverEmpty(t: Task, index: nat, desc: string)
    requires 0 < |t.steps|
    ensures 0 < |ToggleStep(t, index).steps|
    ensures 0 < |AddStep(t, desc).steps|
    ensures index < |t.steps| ==> 0 < |RmStep(t, index).steps|
  {
  }

  /** The unit tests of the older `task` module. */
  lemma Examples()
    ensures !IsComplete(New("", "", Dates.Date(2000, 1, 1)))
    ensures IsComplete(Task("", "", Dates.Date(2000, 1, 1), [Tasks.Step(true, "")]))
    ensures IsComplete(ToggleStep(New("", "", Dates.Date(2000, 1, 1)), 0))
  {
  }
}

=== FILE: merge.dfy ===
/** The overlap-removal pass shared, as three near-identical copies, by
    `recheck_holidays` (holidays, untagged) and `recheck_times` (course meeting
    times, tagged with a `Day`; the older copy ignores the tag).

    The pass is Rust's nested index loop taken literally. A variable `len`
    starts as the list's length. The outer loop runs `i` over `0..len`, a range
    fixed once before it starts; each inner loop runs `j` over `0..len` as `len`
    stands when that inner loop starts. Every inner iteration first sets `len` to
    the current length and ends the whole pass if `i` or `j` is out of range; it
    skips `i == j`. When entry `j` starts strictly inside entry `i`'s span, entry
    `i`'s end moves to the later of the two ends and entry `j` is removed; the
    entries after it shift left, and `j` still advances.

    Because `len` is only refreshed at the top of an inner iteration, the range
    of the next inner loop is the length seen before the last removal, and a
    `j` that walks off the shortened list ends the whole pass. */
module Merge {
  import Vecs
  import Orders

  /** A span `(start, end)` with a partition key: a holiday is `((), start, end)`,
      a course meeting time is `(day, start, end)`. */
  datatype Interval<K, T> = Interval(key: K, start: T, end: T)

  /** `p` lies strictly inside the open span `(start, end)`. */
  predicate Between<T>(lt: (T, T) -> bool, p: T, start: T, end: T) {
    lt(start, p) && lt(p, end)
  }

  /** The test the pass applies to the pair `(i, j)`: `j` starts strictly inside
      `i`'s span and, when the pass is day-scoped, both carry the same key. */
  predicate Overlaps<K(==), T>(v: seq<Interval<K, T>>, i: nat, j: nat, lt: (T, T) -> bool, scoped: bool)
    requires i < |v| && j < |v|
  {
    StartsIn(v[i], v[j], lt, scoped)
  }

  /** `b` starts strictly inside `a`'s span (and, when scoped, has `a`'s key). */
  predicate StartsIn<K(==), T>(a: Interval<K, T>, b: Interval<K, T>, lt: (T, T) -> bool, scoped: bool) {
    (!scoped || b.key == a.key) && Between(lt, b.start, a.start, a.end)
  }

  /** `a` after absorbing `b`: its end moves to `b`'s end when that is later, and
      stays where it is otherwise. */
  function Stretch<K, T>(a: Interval<K, T>, b: Interval<K, T>, lt: (T, T) -> bool): (r: Interval<K, T>)
    ensures r.key == a.key && r.start == a.start
    ensures lt(a.end, b.end) ==> r.end == b.end
    ensures !lt(a.end, b.end) ==> r.end == a.end
  {
    a.(end := if lt(a.end, b.end) then b.end else a.end)
  }

  /** What the pass does to an overlapping pair: `i`'s end moves to `j`'s end when
      that is later, then `j` is removed. */
  function Absorb<K, T>(v: seq<Interval<K, T>>, i: nat, j: nat, lt: (T, T) -> bool): (r: seq<Interval<K, T>>)
    requires i < |v| && j < |v| && i != j
    ensures |r| == |v| - 1
  {
    Vecs.Remove(v[i := Stretch(v[i], v[j], lt)], j)
  }

  /** The loop from iteration `(i, j)` on. `n` is the outer range, fixed at entry;
      `bound` is the range of the inner loop now running; `len` is the value the
      Rust `len` variable holds, which becomes the next inner range. */
  function Loop<K(==), T>(v: seq<Interval<K, T>>, lt: (T, T) -> bool, scoped: bool,
                          n: nat, i: nat, j: nat, bound: nat, len: nat): (r: seq<Interval<K, T>>)
    requires i < n
    ensures |r| <= |v|
    ensures 0 < |v| ==> 0 < |r|
    decreases n - i, bound - j
  {
    if j >= bound then
      if i + 1 < n then Loop(v, lt, scoped, n, i + 1, 0, len, len) else v
    else if i >= |v| || j >= |v| then v
    else if i == j then Loop(v, lt, scoped, n, i, j + 1, bound, |v|)
    else if Overlaps(v, i, j, lt, scoped) then Loop(Absorb(v, i, j, lt), lt, scoped, n, i, j + 1, bound, |v|)
    else Loop(v, lt, scoped, n, i, j + 1, bound, |v|)
  }

  /** One call of `recheck_holidays` / `recheck_times`. */
  function Pass<K(==), T>(v: seq<Interval<K, T>>, lt: (T, T) -> bool, scoped: bool): (r: seq<Interval<K, T>>)
    ensures |r| <= |v|
    ensures 0 < |v| ==> 0 < |r|
  {
    if |v| == 0 then v else Loop(v, lt, scoped, |v|, 0, 0, |v|, |v|)
  }

  /** `add_holiday` / `add_time` run the pass exactly twice after each push. */
  function PassTwice<K(==), T>(v: seq<Interval<K, T>>, lt: (T, T) -> bool, scoped: bool): (r: seq<Interval<K, T>>)
    ensures |r| <= |v|
    ensures 0 < |v| ==> 0 < |r|
  {
    Pass(Pass(v, lt, scoped), lt, scoped)
  }

  // ---------------------------------------------------------------------------
  // Short lists, worked out in closed form.

  /** A single entry has nothing to be compared with. */
  lemma PassOne<K, T>(a: Interval<K, T>, lt: (T, T) -> bool, scoped: bool)
    ensures Pass([a], lt, scoped) == [a]
    ensures PassTwice([a], lt, scoped) == [a]
  {
    assert Loop([a], lt, scoped, 1, 0, 0, 1, 1) == Loop([a], lt, scoped, 1, 0, 1, 1, 1);
    assert Pass([a], lt, scoped) == [a];
  }

  /** Two entries: the pass first tries to fold the second into the first, and
      only if that fails the first into the second; otherwise both stay, in order.
      A second pass then changes nothing. */
  lemma PassPair<K, T>(a: Interval<K, T>, b: Interval<K, T>, lt: (T, T) -> bool, scoped: bool)
    ensures Pass([a, b], lt, scoped)
         == if StartsIn(a, b, lt, scoped) then [Stretch(a, b, lt)]
            else if StartsIn(b, a, lt, scoped) then [Stretch(b, a, lt)]
            else [a, b]
    ensures PassTwice([a, b], lt, scoped) == Pass([a, b], lt, scoped)
  {
    if StartsIn(a, b, lt, scoped) {
      PairFoldsSecond(a, b, lt, scoped);
      PassOne(Stretch(a, b, lt), lt, scoped);
    } else if StartsIn(b, a, lt, scoped) {
      PairFoldsFirst(a, b, lt, scoped);
      PassOne(Stretch(b, a, lt), lt, scoped);
    } else {
      PairStays(a, b, lt, scoped);
    }
  }

  lemma PairFoldsSecond<K, T>(a: Interval<K, T>, b: Interval<K, T>, lt: (T, T) -> bool, scoped: bool)
    requires StartsIn(a, b, lt, scoped)
    ensures Pass([a, b], lt, scoped) == [Stretch(a, b, lt)]
  {
    var v := [a, b];
    assert Loop(v, lt, scoped, 2, 0, 0, 2, 2) == Loop(v, lt, scoped, 2, 0, 1, 2, 2);
    assert Absorb(v, 0, 1, lt) == [Stretch(a, b, lt)];
    assert Loop(v, lt, scoped, 2, 0, 1, 2, 2) == Loop([Stretch(a, b, lt)], lt, scoped, 2, 0, 2, 2, 2);
  }

  lemma PairFoldsFirst<K, T>(a: Interval<K, T>, b: Interval<K, T>, lt: (T, T) -> bool, scoped: bool)
    requires !StartsIn(a, b, lt, scoped) && StartsIn(b, a, lt, scoped)
    ensures Pass([a, b], lt, scoped) == [Stretch(b, a, lt)]
  {
    var v := [a, b];
    assert Loop(v, lt, scoped, 2, 0, 0, 2, 2) == Loop(v, lt, scoped, 2, 0, 1, 2, 2);
    assert Loop(v, lt, scoped, 2, 0, 1, 2, 2) == Loop(v, lt, scoped, 2, 1, 0, 2, 2);
    assert Absorb(v, 1, 0, lt) == [Stretch(b, a, lt)];
    assert Loop(v, lt, scoped, 2, 1, 0, 2, 2) == Loop([Stretch(b, a, lt)], lt, scoped, 2, 1, 1, 2, 2);
  }

  lemma PairStays<K, T>(a: Interval<K, T>, b: Interval<K, T>, lt: (T, T) -> bool, scoped: bool)
    requires !StartsIn(a, b, lt, scoped) && !StartsIn(b, a, lt, scoped)
    ensures Pass([a, b], lt, scoped) == [a, b]
    ensures PassTwice([a, b], lt, scoped) == [a, b]
  {
    var v := [a, b];
    assert Loop(v, lt, scoped, 2, 0, 0, 2, 2) == Loop(v, lt, scoped, 2, 0, 1, 2, 2);
    assert Loop(v, lt, scoped, 2, 0, 1, 2, 2) == Loop(v, lt, scoped, 2, 1, 0, 2, 2);
    assert Loop(v, lt, scoped, 2, 1, 0, 2, 2) == Loop(v, lt, scoped, 2, 1, 1, 2, 2);
  }

  /** Plain integer order, for the worked example below. */
  function IntLess(a: int, b: int): bool { a < b }

  /** Two passes are not always enough: on `(0,2) (2,3) (2,3) (1,3)` the first pass
      folds `(1,3)` into `(0,2)`, the second folds one `(2,3)` into `(0,3)` and then
      returns early, so the other `(2,3)`, which starts inside `(0,3)`, survives. */
  lemma TwoPassesLeaveOverlap()
    ensures PassTwice([Interval((), 0, 2), Interval((), 2, 3), Interval((), 2, 3), Interval((), 1, 3)], IntLess, false)
         == [Interval((), 0, 3), Interval((), 2, 3)]
    ensures StartsIn(Interval((), 0, 3), Interval((), 2, 3), IntLess, false)
  {
    LeftoverFirstPass();
    LeftoverSecondPass();
  }

  lemma LeftoverFirstPass()
    ensures Pass([Interval((), 0, 2), Interval((), 2, 3), Interval((), 2, 3), Interval((), 1, 3)], IntLess, false)
         == [Interval((), 0, 3), Interval((), 2, 3), Interval((), 2, 3)]
  {
    var a, b, d := Interval((), 0, 2), Interval((), 2, 3), Interval((), 1, 3);
    var v := [a, b, b, d];
    var w := [Interval((), 0, 3), b, b];
    assert Loop(v, IntLess, false, 4, 0, 0, 4, 4) == Loop(v, IntLess, false, 4, 0, 3, 4, 4);
    assert Overlaps(v, 0, 3, IntLess, false) && Absorb(v, 0, 3, IntLess) == w;
    assert Loop(v, IntLess, false, 4, 0, 3, 4, 4) == Loop(w, IntLess, false, 4, 0, 4, 4, 3);
    LeftoverFirstPassRest();
  }

  /** After the fold, rows 1 and 2 of the first pass find nothing, and row 3 sees
      the shrunk list and returns. */
  lemma LeftoverFirstPassRest()
    ensures var w := [Interval((), 0, 3), Interval((), 2, 3), Interval((), 2, 3)];
            Loop(w, IntLess, false, 4, 1, 0, 3, 3) == w
  {
    var w := [Interval((), 0, 3), Interval((), 2, 3), Interval((), 2, 3)];
    assert Loop(w, IntLess, false, 4, 1, 0, 3, 3) == Loop(w, IntLess, false, 4, 2, 0, 3, 3);
    assert Loop(w, IntLess, false, 4, 2, 0, 3, 3) == Loop(w, IntLess, false, 4, 3, 0, 3, 3);
  }

  lemma LeftoverSecondPass()
    ensures Pass([Interval((), 0, 3), Interval((), 2, 3), Interval((), 2, 3)], IntLess, false)
         == [Interval((), 0, 3), Interval((), 2, 3)]
  {
    var b := Interval((), 2, 3);
    var w := [Interval((), 0, 3), b, b];
    assert Absorb(w, 0, 1, IntLess) == [Interval((), 0, 3), b];
    assert Loop(w, IntLess, false, 3, 0, 0, 3, 3) == Loop(w, IntLess, false, 3, 0, 1, 3, 3);
  }

  // ---------------------------------------------------------------------------
  // A list with no overlapping pair is left alone.

  /** No pair of entries passes the pass's overlap test. */
  predicate Settled<K(==), T>(v: seq<Interval<K, T>>, lt: (T, T) -> bool, scoped: bool) {
    forall i, j :: 0 <= i < |v| && 0 <= j < |v| && i != j ==> !Overlaps(v, i, j, lt, scoped)
  }

  lemma {:induction false} LoopSettled<K, T>(v: seq<Interval<K, T>>, lt: (T, T) -> bool, scoped: bool,
                                                 n: nat, i: nat, j: nat, bound: nat, len: nat)
    requires i < n && Settled(v, lt, scoped)
    ensures Loop(v, lt, scoped, n, i, j, bound, len) == v
    decreases n - i, bound - j
  {
    if j >= bound {
      if i + 1 < n { LoopSettled(v, lt, scoped, n, i + 1, 0, len, len); }
    } else if i >= |v| || j >= |v| {
    } else {
      LoopSettled(v, lt, scoped, n, i, j + 1, bound, |v|);
    }
  }

  /** When no entry starts strictly inside another's span, the pass changes nothing;
      so it is idempotent on such lists. */
  lemma PassSettled<K, T>(v: seq<Interval<K, T>>, lt: (T, T) -> bool, scoped: bool)
    requires Settled(v, lt, scoped)
    ensures Pass(v, lt, scoped) == v
    ensures PassTwice(v, lt, scoped) == v
  {
    if |v| > 0 {
      LoopSettled(v, lt, scoped, |v|, 0, 0, |v|, |v|);
    }
  }

  /** Two spans that only touch (the first ends where the second starts) or that
      share a start never pass the strict overlap test. */
  lemma PairSettled<K, T(!new)>(a: Interval<K, T>, b: Interval<K, T>, lt: (T, T) -> bool, scoped: bool)
    requires Orders.StrictTotalOrder(lt)
    requires !lt(a.end, a.start)
    requires a.end == b.start || a.start == b.start
    ensures Settled([a, b], lt, scoped)
    ensures Settled([b, a], lt, scoped)
  {
  }

  // ---------------------------------------------------------------------------
  // When every entry carries the same key, scoping makes no difference.

  predicate OneKey<K(==), T>(v: seq<Interval<K, T>>, key: K) {
    forall m :: 0 <= m < |v| ==> v[m].key == key
  }

  lemma {:induction false} LoopOneKey<K, T>(v: seq<Interval<K, T>>, lt: (T, T) -> bool, key: K,
                                               n: nat, i: nat, j: nat, bound: nat, len: nat)
    requires i < n && OneKey(v, key)
    ensures Loop(v, lt, false, n, i, j, bound, len) == Loop(v, lt, true, n, i, j, bound, len)
    ensures OneKey(Loop(v, lt, true, n, i, j, bound, len), key)
    decreases n - i, bound - j
  {
    if j >= bound {
      if i + 1 < n { LoopOneKey(v, lt, key, n, i + 1, 0, len, len); }
    } else if i >= |v| || j >= |v| {
    } else if i == j {
      LoopOneKey(v, lt, key, n, i, j + 1, bound, |v|);
    } else if Overlaps(v, i, j, lt, true) {
      var w := Absorb(v, i, j, lt);
      forall m | 0 <= m < |w| ensures w[m].key == key {
        var m' := if m < j then m else m + 1;
        assert w[m].key == v[m'].key;
      }
      LoopOneKey(w, lt, key, n, i, j + 1, bound, |v|);
    } else {
      LoopOneKey(v, lt, key, n, i, j + 1, bound, |v|);
    }
  }

  /** On a list whose entries all carry one key, the unscoped pass (which ignores
      keys) and the scoped pass coincide. */
  lemma PassOneKey<K, T>(v: seq<Interval<K, T>>, lt: (T, T) -> bool, key: K)
    requires OneKey(v, key)
    ensures Pass(v, lt, false) == Pass(v, lt, true)
    ensures PassTwice(v, lt, false) == PassTwice(v, lt, true)
  {
    if |v| > 0 {
      LoopOneKey(v, lt, key, |v|, 0, 0, |v|, |v|);
      var w := Pass(v, lt, true);
      if |w| > 0 {
        LoopOneKey(w, lt, key, |w|, 0, 0, |w|, |w|);
      }
    }
  }

  // ---------------------------------------------------------------------------
  // Survivors keep their key and start, in input order, and only grow.

  /** `w` came from `v0` by the pass: entry `k` of `w` descends from entry `idx[k]`
      of `v0`, the `idx` strictly increase (so the (key, start) column of `w` is an
      order-preserving subsequence of `v0`'s), each survivor has its origin's key
      and start, an end no earlier than its origin's, and an end that is some
      input entry's end. */
  ghost predicate Descends<K, T>(v0: seq<Interval<K, T>>, w: seq<Interval<K, T>>, idx: seq<nat>, lt: (T, T) -> bool) {
    && |idx| == |w|
    && (forall k :: 0 <= k < |idx| ==> idx[k] < |v0|)
    && (forall k, l :: 0 <= k < l < |idx| ==> idx[k] < idx[l])
    && (forall k :: 0 <= k < |w| ==> w[k].key == v0[idx[k]].key && w[k].start == v0[idx[k]].start)
    && (forall k :: 0 <= k < |w| ==> !lt(w[k].end, v0[idx[k]].end))
    && (forall k :: 0 <= k < |w| ==> exists m :: 0 <= m < |v0| && w[k].end == v0[m].end)
  }

  lemma DescendsLength<K, T>(v0: seq<Interval<K, T>>, w: seq<Interval<K, T>>, idx: seq<nat>, lt: (T, T) -> bool)
    requires Descends(v0, w, idx, lt)
    ensures |w| <= |v0|
    ensures forall k :: 0 <= k < |idx| ==> k <= idx[k]
  {
    if |idx| > 0 {
      var k := 0;
      while k < |idx|
        invariant k <= |idx|
        invariant forall l :: 0 <= l < k ==> l <= idx[l]
      {
        if k > 0 { assert idx[k - 1] < idx[k]; }
        k := k + 1;
      }
      assert |idx| - 1 <= idx[|idx| - 1];
    }
  }

  lemma DescendsRefl<K, T(!new)>(v: seq<Interval<K, T>>, lt: (T, T) -> bool)
    requires forall x :: !lt(x, x)
    ensures Descends(v, v, seq(|v|, k => k), lt)
  {
    var idx: seq<nat> := seq(|v|, k => k);
    assert forall k :: 0 <= k < |idx| ==> idx[k] == k;
    forall k | 0 <= k < |v| ensures exists m :: 0 <= m < |v| && v[k].end == v[m].end {
      assert v[k].end == v[idx[k]].end;
    }
    assert forall k :: 0 <= k < |v| ==> !lt(v[k].end, v[idx[k]].end);
  }

  lemma AbsorbDescends<K, T(!new)>(v0: seq<Interval<K, T>>, w: seq<Interval<K, T>>, idx: seq<nat>,
                                   i: nat, j: nat, lt: (T, T) -> bool)
    requires Orders.StrictTotalOrder(lt)
    requires i < |w| && j < |w| && i != j
    requires Descends(v0, w, idx, lt)
    ensures Descends(v0, Absorb(w, i, j, lt), Vecs.Remove(idx, j), lt)
  {
    var end := if lt(w[i].end, w[j].end) then w[j].end else w[i].end;
    var u := w[i := w[i].(end := end)];
    var r := Absorb(w, i, j, lt);
    var idx' := Vecs.Remove(idx, j);
    assert r == Vecs.Remove(u, j);
    forall k | 0 <= k < |r|
      ensures r[k].key == v0[idx'[k]].key && r[k].start == v0[idx'[k]].start
      ensures !lt(r[k].end, v0[idx'[k]].end)
      ensures exists m :: 0 <= m < |v0| && r[k].end == v0[m].end
    {
      var k' := if k < j then k else k + 1;
      assert r[k] == u[k'] && idx'[k] == idx[k'];
      if k' == i {
        var m :| 0 <= m < |v0| && w[j].end == v0[m].end;
        assert !lt(w[i].end, v0[idx[i]].end);
      }
    }
  }

  lemma {:induction false} LoopDescends<K, T(!new)>(v0: seq<Interval<K, T>>, w: seq<Interval<K, T>>, idx: seq<nat>,
                                                        lt: (T, T) -> bool, scoped: bool,
                                                        n: nat, i: nat, j: nat, bound: nat, len: nat)
    returns (idx': seq<nat>)
    requires Orders.StrictTotalOrder(lt)
    requires i < n && Descends(v0, w, idx, lt)
    ensures Descends(v0, Loop(w, lt, scoped, n, i, j, bound, len), idx', lt)
    decreases n - i, bound - j
  {
    if j >= bound {
      if i + 1 < n {
        idx' := LoopDescends(v0, w, idx, lt, scoped, n, i + 1, 0, len, len);
      } else {
        idx' := idx;
      }
    } else if i >= |w| || j >= |w| {
      idx' := idx;
    } else if i == j {
      idx' := LoopDescends(v0, w, idx, lt, scoped, n, i, j + 1, bound, |w|);
    } else if Overlaps(w, i, j, lt, scoped) {
      AbsorbDescends(v0, w, idx, i, j, lt);
      idx' := LoopDescends(v0, Absorb(w, i, j, lt), Vecs.Remove(idx, j), lt, scoped, n, i, j + 1, bound, |w|);
    } else {
      idx' := LoopDescends(v0, w, idx, lt, scoped, n, i, j + 1, bound, |w|);
    }
  }

  /** The pass never moves a start, never changes a key, keeps the survivors in
      input order, and only ever pushes an end later, to some input entry's end. */
  lemma PassDescends<K, T(!new)>(v: seq<Interval<K, T>>, lt: (T, T) -> bool, scoped: bool)
    returns (idx: seq<nat>)
    requires Orders.StrictTotalOrder(lt)
    ensures Descends(v, Pass(v, lt, scoped), idx, lt)
  {
    DescendsRefl(v, lt);
    idx := seq(|v|, k => k);
    if |v| > 0 {
      idx := LoopDescends(v, v, idx, lt, scoped, |v|, 0, 0, |v|, |v|);
    }
  }

  lemma DescendsTrans<K, T(!new)>(v0: seq<Interval<K, T>>, v1: seq<Interval<K, T>>, v2: seq<Interval<K, T>>,
                                  a: seq<nat>, b: seq<nat>, lt: (T, T) -> bool)
    returns (c: seq<nat>)
    requires Orders.StrictTotalOrder(lt)
    requires Descends(v0, v1, a, lt) && Descends(v1, v2, b, lt)
    ensures Descends(v0, v2, c, lt)
  {
    c := seq(|b|, k requires 0 <= k < |b| => a[b[k]]);
    forall k | 0 <= k < |v2|
      ensures exists m :: 0 <= m < |v0| && v2[k].end == v0[m].end
    {
      var m1 :| 0 <= m1 < |v1| && v2[k].end == v1[m1].end;
      var m0 :| 0 <= m0 < |v0| && v1[m1].end == v0[m0].end;
      assert v2[k].end == v0[m0].end;
    }
    forall k | 0 <= k < |v2| ensures !lt(v2[k].end, v0[c[k]].end) {
      assert !lt(v2[k].end, v1[b[k]].end);
      assert !lt(v1[b[k]].end, v0[a[b[k]]].end);
    }
  }

  lemma PassTwiceDescends<K, T(!new)>(v: seq<Interval<K, T>>, lt: (T, T) -> bool, scoped: bool)
    returns (idx: seq<nat>)
    requires Orders.StrictTotalOrder(lt)
    ensures Descends(v, PassTwice(v, lt, scoped), idx, lt)
  {
    var w := Pass(v, lt, scoped);
    var a := PassDescends(v, lt, scoped);
    var b := PassDescends(w, lt, scoped);
    idx := DescendsTrans(v, w, PassTwice(v, lt, scoped), a, b, lt);
  }

  // ---------------------------------------------------------------------------
  // Coverage: the points strictly inside some span, per key, never change.

  /** `p` is strictly inside `e`'s span, and (when scoped) `e` carries `key`. */
  predicate Inside<K(==), T>(e: Interval<K, T>, lt: (T, T) -> bool, scoped: bool, key: K, p: T) {
    (!scoped || e.key == key) && Between(lt, p, e.start, e.end)
  }

  /** Some entry covers `p` (for `key`, when scoped). For holidays this is `is_holiday`. */
  predicate Covers<K(==), T>(v: seq<Interval<K, T>>, lt: (T, T) -> bool, scoped: bool, key: K, p: T) {
    exists m :: 0 <= m < |v| && Inside(v[m], lt, scoped, key, p)
  }

  /** Pushing an entry adds exactly the points inside it to the covered set. */
  lemma CoversPush<K, T>(v: seq<Interval<K, T>>, e: Interval<K, T>, lt: (T, T) -> bool, scoped: bool, key: K, p: T)
    ensures Covers(v + [e], lt, scoped, key, p) <==> Covers(v, lt, scoped, key, p) || Inside(e, lt, scoped, key, p)
  {
    var w := v + [e];
    if Covers(w, lt, scoped, key, p) {
      var m :| 0 <= m < |w| && Inside(w[m], lt, scoped, key, p);
      if m < |v| { assert w[m] == v[m]; }
    }
    if Covers(v, lt, scoped, key, p) {
      var m :| 0 <= m < |v| && Inside(v[m], lt, scoped, key, p);
      assert w[m] == v[m];
    }
    assert w[|v|] == e;
  }

  lemma AbsorbCovers<K, T(!new)>(w: seq<Interval<K, T>>, i: nat, j: nat, lt: (T, T) -> bool, scoped: bool, key: K, p: T)
    requires Orders.StrictTotalOrder(lt)
    requires i < |w| && j < |w| && i != j && Overlaps(w, i, j, lt, scoped)
    ensures Covers(Absorb(w, i, j, lt), lt, scoped, key, p) <==> Covers(w, lt, scoped, key, p)
  {
    var end := if lt(w[i].end, w[j].end) then w[j].end else w[i].end;
    var r := Absorb(w, i, j, lt);
    var i' := if i < j then i else i - 1;
    assert r[i'] == w[i].(end := end);
    if Covers(w, lt, scoped, key, p) {
      var m :| 0 <= m < |w| && Inside(w[m], lt, scoped, key, p);
      if m == j || m == i {
        assert Inside(r[i'], lt, scoped, key, p);
      } else {
        var m' := if m < j then m else m - 1;
        assert r[m'] == w[m];
      }
    }
    if Covers(r, lt, scoped, key, p) {
      var m' :| 0 <= m' < |r| && Inside(r[m'], lt, scoped, key, p);
      var m := if m' < j then m' else m' + 1;
      if m != i {
        assert r[m'] == w[m];
      } else if end == w[i].end || lt(p, w[i].end) {
        assert Inside(w[i], lt, scoped, key, p);
      } else {
        assert Inside(w[j], lt, scoped, key, p);
      }
    }
  }

  lemma {:induction false} LoopCovers<K, T(!new)>(w: seq<Interval<K, T>>, lt: (T, T) -> bool, scoped: bool,
                                                      n: nat, i: nat, j: nat, bound: nat, len: nat, key: K, p: T)
    requires Orders.StrictTotalOrder(lt)
    requires i < n
    ensures Covers(Loop(w, lt, scoped, n, i, j, bound, len), lt, scoped, key, p) <==> Covers(w, lt, scoped, key, p)
    decreases n - i, bound - j
  {
    if j >= bound {
      if i + 1 < n { LoopCovers(w, lt, scoped, n, i + 1, 0, len, len, key, p); }
    } else if i >= |w| || j >= |w| {
    } else if i == j {
      LoopCovers(w, lt, scoped, n, i, j + 1, bound, |w|, key, p);
    } else if Overlaps(w, i, j, lt, scoped) {
      var w' := Absorb(w, i, j, lt);
      assert Loop(w, lt, scoped, n, i, j, bound, len) == Loop(w', lt, scoped, n, i, j + 1, bound, |w|);
      AbsorbCovers(w, i, j, lt, scoped, key, p);
      LoopCovers(w', lt, scoped, n, i, j + 1, bound, |w|, key, p);
    } else {
      LoopCovers(w, lt, scoped, n, i, j + 1, bound, |w|, key, p);
    }
  }

  /** No covered point is lost and none is gained: every point strictly inside some
      span (of the given key, when scoped) before the pass is so after it, and
      conversely. */
  lemma PassCovers<K, T(!new)>(v: seq<Interval<K, T>>, lt: (T, T) -> bool, scoped: bool, key: K, p: T)
    requires Orders.StrictTotalOrder(lt)
    ensures Covers(Pass(v, lt, scoped), lt, scoped, key, p) <==> Covers(v, lt, scoped, key, p)
    ensures Covers(PassTwice(v, lt, scoped), lt, scoped, key, p) <==> Covers(v, lt, scoped, key, p)
  {
    if |v| > 0 {
      LoopCovers(v, lt, scoped, |v|, 0, 0, |v|, |v|, key, p);
    }
    var w := Pass(v, lt, scoped);
    if |w| > 0 {
      LoopCovers(w, lt, scoped, |w|, 0, 0, |w|, |w|, key, p);
    }
  }

  // ---------------------------------------------------------------------------
  // Keys: the day-scoped pass never loses a key.

  predicate HasKey<K(==), T>(v: seq<Interval<K, T>>, key: K) {
    exists m :: 0 <= m < |v| && v[m].key == key
  }

  lemma AbsorbKeepsKeys<K, T>(w: seq<Interval<K, T>>, i: nat, j: nat, lt: (T, T) -> bool, key: K)
    requires i < |w| && j < |w| && i != j && Overlaps(w, i, j, lt, true)
    ensures HasKey(Absorb(w, i, j, lt), key) <==> HasKey(w, key)
  {
    var r := Absorb(w, i, j, lt);
    var i' := if i < j then i else i - 1;
    assert r[i'].key == w[i].key == w[j].key;
    if HasKey(w, key) {
      var m :| 0 <= m < |w| && w[m].key == key;
      if m != j {
        var m' := if m < j then m else m - 1;
        assert r[m'] == w[m] || m == i;
      }
    }
    if HasKey(r, key) {
      var m' :| 0 <= m' < |r| && r[m'].key == key;
      var m := if m' < j then m' else m' + 1;
      assert w[m].key == key;
    }
  }

  lemma {:induction false} LoopKeepsKeys<K, T>(w: seq<Interval<K, T>>, lt: (T, T) -> bool,
                                                  n: nat, i: nat, j: nat, bound: nat, len: nat, key: K)
    requires i < n
    ensures HasKey(Loop(w, lt, true, n, i, j, bound, len), key) <==> HasKey(w, key)
    decreases n - i, bound - j
  {
    if j >= bound {
      if i + 1 < n { LoopKeepsKeys(w, lt, n, i + 1, 0, len, len, key); }
    } else if i >= |w| || j >= |w| {
    } else if i == j {
      LoopKeepsKeys(w, lt, n, i, j + 1, bound, |w|, key);
    } else if Overlaps(w, i, j, lt, true) {
      AbsorbKeepsKeys(w, i, j, lt, key);
      LoopKeepsKeys(Absorb(w, i, j, lt), lt, n, i, j + 1, bound, |w|, key);
    } else {
      LoopKeepsKeys(w, lt, n, i, j + 1, bound, |w|, key);
    }
  }

  /** The day-scoped pass only removes an entry in favour of one with the same key,
      so the set of keys present is unchanged. */
  lemma PassKeepsKeys<K, T>(v: seq<Interval<K, T>>, lt: (T, T) -> bool, key: K)
    ensures HasKey(Pass(v, lt, true), key) <==> HasKey(v, key)
    ensures HasKey(PassTwice(v, lt, true), key) <==> HasKey(v, key)
  {
    if |v| > 0 {
      LoopKeepsKeys(v, lt, |v|, 0, 0, |v|, |v|, key);
    }
    var w := Pass(v, lt, true);
    if |w| > 0 {
      LoopKeepsKeys(w, lt, |w|, 0, 0, |w|, |w|, key);
    }
  }
}

=== FILE: order.dfy ===
/** Properties of the comparison the recheck passes run on. */
module Orders {

  /** `lt` is irreflexive, transitive and relates any two distinct values one
      way or the other: what a derived `PartialOrd` on plain integer fields gives. */
  ghost predicate StrictTotalOrder<T(!new)>(lt: (T, T) -> bool) {
    && (forall x :: !lt(x, x))
    && (forall x, y, z :: lt(x, y) && lt(y, z) ==> lt(x, z))
    && (forall x, y :: x != y ==> lt(x, y) || lt(y, x))
  }
}

=== FILE: task.dfy ===
/** A task of a course (`application::task::Task`): a name, a description, a due
    date and a checklist of steps that is never empty, because a placeholder
    step `(false, "Completed?")` stands in while there are no real ones. */
module Tasks {
  import Dates
  import Vecs

  /** One checklist entry: whether it is done, and its label. */
  datatype Step = Step(done: bool, text: string)

  /** The stand-in step a task carries while it has no real steps. */
  const Placeholder: Step := Step(false, "Completed?")

  datatype Task = Task(name: string, desc: string, due: Dates.Date, steps: seq<Step>)

  /** Whether some step is still open: the `steps.iter().any(|(c, _)| !c)` scan. */
  function AnyOpen(steps: seq<Step>): (r: bool)
    ensures r <==> exists k :: 0 <= k < |steps| && !steps[k].done
  {
    if |steps| == 0 then false else !steps[0].done || AnyOpen(steps[1..])
  }

  /** `Task::new`: only the placeholder step, so a new task is not complete. */
  function New(name: string, desc: string, due: Dates.Date): (t: Task)
    ensures t.name == name && t.desc == desc && t.due == due
    ensures |t.steps| == 1 && t.steps[0] == Placeholder
    ensures !IsComplete(t)
  {
    Task(name, desc, due, [Placeholder])
  }

  /** `is_complete`: every step is done. */
  function IsComplete(t: Task): (r: bool)
    ensures r <==> forall k :: 0 <= k < |t.steps| ==> t.steps[k].done
  {
    !AnyOpen(t.steps)
  }

  /** `toggle_step`: flips the flag of step `index` and nothing else; an index past
      the end is ignored. */
  function ToggleStep(t: Task, index: nat): (r: Task)
    ensures r.name == t.name && r.desc == t.desc && r.due == t.due
    ensures |r.steps| == |t.steps|
    ensures forall k :: 0 <= k < |t.steps| ==> r.steps[k].text == t.steps[k].text
    ensures forall k :: 0 <= k < |t.steps| ==> (r.steps[k].done <==> (t.steps[k].done != (k == index)))
    ensures |t.steps| <= index ==> r == t
  {
    if index < |t.steps| then
      t.(steps := t.steps[index := Step(!t.steps[index].done, t.steps[index].text)])
    else t
  }

  /** Toggling the same step twice restores the task. */
  lemma ToggleStepTwice(t: Task, index: nat)
    ensures ToggleStep(ToggleStep(t, index), index) == t
  {
    var r := ToggleStep(ToggleStep(t, index), index);
    assert r.steps == t.steps;
  }

  /** `add_step`: drops a leading placeholder, then appends an open step labelled
      `desc`. Rust indexes `steps[0]`, so the list must not be empty. */
  function AddStep(t: Task, desc: string): (r: Task)
    requires 0 < |t.steps|
    ensures r.name == t.name && r.desc == t.desc && r.due == t.due
    ensures 0 < |r.steps| && r.steps[|r.steps| - 1] == Step(false, desc)
    ensures t.steps[0] == Placeholder ==> r.steps[..|r.steps| - 1] == t.steps[1..]
    ensures t.steps[0] != Placeholder ==> r.steps[..|r.steps| - 1] == t.steps
    ensures !IsComplete(r)
  {
    var kept := if t.steps[0] == Placeholder then Vecs.Remove(t.steps, 0) else t.steps;
    assert t.steps[0] == Placeholder ==> kept == t.steps[1..];
    t.(steps := kept + [Step(false, desc)])
  }

  /** `rm_step`: removes exactly step `index`, and puts the placeholder back when
      that was the last step. Rust's `remove` panics past the end. */
  function RmStep(t: Task, index: nat): (r: Task)
    requires index < |t.steps|
    ensures r.name == t.name && r.desc == t.desc && r.due == t.due
    ensures 1 < |t.steps| ==> |r.steps| == |t.steps| - 1
    ensures 1 < |t.steps| ==> forall k :: 0 <= k < index ==> r.steps[k] == t.steps[k]
    ensures 1 < |t.steps| ==> forall k :: index <= k < |r.steps| ==> r.steps[k] == t.steps[k + 1]
    ensures |t.steps| == 1 ==> r.steps == [Placeholder]
  {
    var rest := Vecs.Remove(t.steps, index);
    if |rest| == 0 then t.(steps := [Placeholder]) else t.(steps := rest)
  }

  /** `is_complete_str`: the label the front-end shows. */
  function IsCompleteStr(t: Task): (r: string)
    ensures r == "Done" || r == "Not Done"
    ensures r == "Done" <==> IsComplete(t)
  {
    if IsComplete(t) then "Done" else "Not Done"
  }

  /** The checklist is never empty: `new` starts it non-empty and every step
      operation keeps it so. */
  lemma StepsNeverEmpty(t: Task, index: nat, desc: string)
    requires 0 < |t.steps|
    ensures 0 < |ToggleStep(t, index).steps|
    ensures 0 < |AddStep(t, desc).steps|
    ensures index < |t.steps| ==> 0 < |RmStep(t, index).steps|
  {
  }

  /** The placeholder's life cycle: a real first step replaces it, and removing the
      only real step brings it back. */
  lemma PlaceholderLifecycle(name: string, desc: string, due: Dates.Date, text: string)
    ensures AddStep(New(name, desc, due), text).steps == [Step(false, text)]
    ensures RmStep(AddStep(New(name, desc, due), text), 0).steps == [Placeholder]
  {
  }

  /** The unit tests of `application::task`. */
  lemma Examples()
    ensures IsComplete(Task("", "", Dates.Date(2000, 1, 1), [Step(true, "")]))
    ensures IsComplete(ToggleStep(New("", "", Dates.Date(2000, 1, 1)), 0))
    ensures IsCompleteStr(ToggleStep(New("", "", Dates.Date(2000, 1, 1)), 0)) == "Done"
  {
  }
}

=== FILE: text.dfy ===
/** The small part of Rust's string handling the calendar types rely on:
    zero-padded decimal formatting (`{:02}`, `{:04}`), `str::parse` for
    unsigned integers, `str::split` on one character and ASCII lower-casing. */
module Text {
  import opened Wrappers

  predicate IsDigit(c: char) {
    '0' <= c <= '9'
  }

  predicate AllDigits(s: string) {
    forall k :: 0 <= k < |s| ==> IsDigit(s[k])
  }

  function DigitChar(d: nat): (c: char)
    requires d < 10
    ensures IsDigit(c)
  {
    ('0' as int + d) as char
  }

  function DigitOf(c: char): (d: nat)
    requires IsDigit(c)
    ensures d < 10
  {
    c as int - '0' as int
  }

  lemma DigitRoundTrip(d: nat)
    requires d < 10
    ensures DigitOf(DigitChar(d)) == d
  {
  }

  /** The number a string of ASCII digits spells, most significant digit first. */
  function Value(s: string): nat
    requires AllDigits(s)
    decreases |s|
  {
    if |s| == 0 then 0 else Value(s[..|s| - 1]) * 10 + DigitOf(s[|s| - 1])
  }

  /** The shortest decimal spelling of `n`, as Rust's `{}` writes an unsigned integer. */
  function Decimal(n: nat): (s: string)
    ensures 0 < |s| && AllDigits(s)
    ensures |s| == 1 || s[0] != '0'
  {
    if n < 10 then [DigitChar(n)] else Decimal(n / 10) + [DigitChar(n % 10)]
  }

  /** Reading back a decimal spelling gives the number that was written. */
  lemma {:induction false} ValueOfDecimal(n: nat)
    ensures Value(Decimal(n)) == n
  {
    if n >= 10 {
      var s := Decimal(n);
      assert s[..|s| - 1] == Decimal(n / 10);
      ValueOfDecimal(n / 10);
      DigitRoundTrip(n % 10);
    } else {
      DigitRoundTrip(n);
    }
  }

  function Zeros(k: nat): (s: string)
    ensures |s| == k && AllDigits(s)
  {
    seq(k, _ => '0')
  }

  lemma {:induction false} ValueOfZeros(k: nat)
    ensures Value(Zeros(k)) == 0
  {
    if k > 0 {
      assert Zeros(k)[..k - 1] == Zeros(k - 1);
      ValueOfZeros(k - 1);
    }
  }

  /** Leading zeros do not change the value of a digit string. */
  lemma {:induction false} ValueIgnoresLeadingZeros(k: nat, s: string)
    requires AllDigits(s)
    ensures AllDigits(Zeros(k) + s)
    ensures Value(Zeros(k) + s) == Value(s)
    decreases |s|
  {
    var t := Zeros(k) + s;
    assert AllDigits(t) by {
      forall i | 0 <= i < |t| ensures IsDigit(t[i]) {
        if i >= k { assert t[i] == s[i - k]; }
      }
    }
    if |s| == 0 {
      assert t == Zeros(k);
      ValueOfZeros(k);
    } else {
      assert t[..|t| - 1] == Zeros(k) + s[..|s| - 1];
      ValueIgnoresLeadingZeros(k, s[..|s| - 1]);
    }
  }

  /** Rust's `{:0width}`: the decimal spelling of `n`, left-padded with zeros
      to at least `width` characters. */
  function ZeroPad(n: nat, width: nat): (s: string)
    ensures AllDigits(s)
    ensures width <= |s|
  {
    var digits := Decimal(n);
    if |digits| >= width then digits
    else
      ValueIgnoresLeadingZeros(width - |digits|, digits);
      Zeros(width - |digits|) + digits
  }

  /** A zero-padded spelling is exactly `width` long while `n` has at most `width` digits. */
  lemma ZeroPadWidth(n: nat, width: nat)
    requires |Decimal(n)| <= width
    ensures |ZeroPad(n, width)| == width
  {
  }

  lemma TwoDigits(n: nat)
    requires n < 100
    ensures |Decimal(n)| <= 2
  {
  }

  lemma FourDigits(n: nat)
    requires n < 10000
    ensures |Decimal(n)| <= 4
  {
    if n >= 10 {
      assert n / 10 < 1000;
      assert |Decimal(n / 10)| <= 3 by {
        if n / 10 >= 10 {
          assert n / 100 < 100;
          TwoDigits(n / 10 / 10);
        }
      }
    }
  }

  lemma ValueOfZeroPad(n: nat, width: nat)
    ensures Value(ZeroPad(n, width)) == n
  {
    var digits := Decimal(n);
    ValueOfDecimal(n);
    if |digits| < width {
      assert ZeroPad(n, width) == Zeros(width - |digits|) + digits;
      ValueIgnoresLeadingZeros(width - |digits|, digits);
    } else {
      assert ZeroPad(n, width) == digits;
    }
  }

  /** The digits `str::parse` reads for an unsigned integer: one leading `+` is skipped. */
  function UnsignedDigits(s: string): (ds: string)
    ensures |ds| <= |s|
  {
    if 0 < |s| && s[0] == '+' then s[1..] else s
  }

  /** `str::parse::<uN>()`, where `max` is the largest `uN`: an optional `+`,
      then at least one ASCII digit, and a value that fits. Anything else is an
      error. */
  function ParseUnsigned(s: string, max: nat): (r: Option<nat>)
    ensures r.Some? ==> r.value <= max
    ensures r.Some? ==> 0 < |UnsignedDigits(s)| && AllDigits(UnsignedDigits(s))
    ensures r.Some? ==> r.value == Value(UnsignedDigits(s))
    ensures var ds := UnsignedDigits(s); 0 < |ds| && AllDigits(ds) && Value(ds) <= max ==> r == Some(Value(ds))
  {
    var ds := UnsignedDigits(s);
    if |ds| == 0 || !AllDigits(ds) then None
    else if Value(ds) > max then None
    else Some(Value(ds))
  }

  /** One leading `+` is allowed but is not a number by itself; a sign other than
      `+`, an empty string and a value past the maximum are refused. */
  lemma ParseUnsignedExamples()
    ensures ParseUnsigned("+7", 0xFF) == Some(7)
    ensures ParseUnsigned("+", 0xFF) == None
    ensures ParseUnsigned("", 0xFF) == None
    ensures ParseUnsigned("-1", 0xFF) == None
    ensures ParseUnsigned("256", 0xFF) == None
    ensures ParseUnsigned("255", 0xFF) == Some(255)
  {
    assert UnsignedDigits("+7") == "7";
    assert "256"[..2] == "25" && "255"[..2] == "25" && "25"[..1] == "2";
  }

  /** Whatever `{:0width}` writes, `str::parse` reads back, as long as it fits. */
  lemma ParseZeroPad(n: nat, width: nat, max: nat)
    requires n <= max
    ensures ParseUnsigned(ZeroPad(n, width), max) == Some(n)
  {
    ValueOfZeroPad(n, width);
  }

  /** Position of the first `c` in `s`. */
  function IndexOf(s: string, c: char): (i: nat)
    requires c in s
    ensures i < |s| && s[i] == c && c !in s[..i]
  {
    if s[0] == c then 0
    else
      var i := IndexOf(s[1..], c) + 1;
      assert s[..i] == [s[0]] + s[1..][..i - 1];
      i
  }

  lemma IndexOfFirst(a: string, b: string, c: char)
    requires c !in a
    ensures IndexOf(a + [c] + b, c) == |a|
  {
    var s := a + [c] + b;
    assert s[|a|] == c;
  }

  lemma IndexOfPrefix(a: string, b: string, c: char)
    requires c in a
    ensures IndexOf(a + b, c) == IndexOf(a, c)
  {
    var j := IndexOf(a, c);
    assert (a + b)[j] == c;
    assert (a + b)[..j] == a[..j];
  }

  /** `str::split(sep)`: the pieces between consecutive separators, empty pieces
      included, so there is always one more piece than separators. */
  function Split(s: string, sep: char): (parts: seq<string>)
    ensures 0 < |parts|
    ensures forall k :: 0 <= k < |parts| ==> sep !in parts[k]
    decreases |s|
  {
    if sep !in s then [s]
    else
      var i := IndexOf(s, sep);
      [s[..i]] + Split(s[i + 1..], sep)
  }

  /** A string of digits holds no separator, so `split` leaves it in one piece. */
  lemma SplitDigits(s: string, sep: char)
    requires AllDigits(s) && !IsDigit(sep)
    ensures Split(s, sep) == [s]
  {
    assert forall k :: 0 <= k < |s| ==> s[k] != sep;
  }

  /** Three digit strings joined by a non-digit separator split back into those three. */
  lemma SplitThreeDigits(a: string, b: string, c: string, sep: char)
    requires AllDigits(a) && AllDigits(b) && AllDigits(c) && !IsDigit(sep)
    ensures Split(a + [sep] + b + [sep] + c, sep) == [a, b, c]
  {
    SplitAppend(a, b, sep);
    SplitAppend(a + [sep] + b, c, sep);
    SplitDigits(a, sep);
    SplitDigits(b, sep);
    SplitDigits(c, sep);
  }

  /** The pieces glued back together with `sep` between neighbours. */
  function Join(parts: seq<string>, sep: char): string
  {
    if |parts| == 0 then ""
    else if |parts| == 1 then parts[0]
    else parts[0] + [sep] + Join(parts[1..], sep)
  }

  /** Splitting loses nothing: joining the pieces rebuilds the string. */
  lemma {:induction false} JoinSplit(s: string, sep: char)
    ensures Join(Split(s, sep), sep) == s
    decreases |s|
  {
    if sep in s {
      var i := IndexOf(s, sep);
      JoinSplit(s[i + 1..], sep);
      var parts := Split(s, sep);
      assert parts[1..] == Split(s[i + 1..], sep);
      assert s == s[..i] + [sep] + s[i + 1..];
    }
  }

  /** Pieces free of `sep` come back unchanged from a join followed by a split. */
  lemma {:induction false} SplitJoin(parts: seq<string>, sep: char)
    requires 0 < |parts|
    requires forall k :: 0 <= k < |parts| ==> sep !in parts[k]
    ensures Split(Join(parts, sep), sep) == parts
  {
    if |parts| > 1 {
      var rest := Join(parts[1..], sep);
      var s := parts[0] + [sep] + rest;
      IndexOfFirst(parts[0], rest, sep);
      assert s[..|parts[0]|] == parts[0];
      assert s[|parts[0]| + 1..] == rest;
      SplitJoin(parts[1..], sep);
    }
  }

  /** Whatever follows one more separator only adds pieces at the end. */
  lemma {:induction false} SplitAppend(s: string, x: string, sep: char)
    ensures Split(s + [sep] + x, sep) == Split(s, sep) + Split(x, sep)
    decreases |s|
  {
    var t := s + [sep] + x;
    if sep !in s {
      IndexOfFirst(s, x, sep);
      assert t[..|s|] == s;
      assert t[|s| + 1..] == x;
    } else {
      var i := IndexOf(s, sep);
      IndexOfPrefix(s, [sep] + x, sep);
      assert t == s + ([sep] + x);
      assert t[..i] == s[..i];
      assert t[i + 1..] == s[i + 1..] + [sep] + x;
      SplitAppend(s[i + 1..], x, sep);
    }
  }

  /** ASCII lower-casing of one character; every other character is left alone. */
  function LowerChar(c: char): char
  {
    if 'A' <= c <= 'Z' then (c as int + 32) as char else c
  }

  /** `str::to_lowercase`, restricted to ASCII letters. */
  function Lower(s: string): (r: string)
    ensures |r| == |s|
    ensures forall k :: 0 <= k < |s| ==> r[k] == LowerChar(s[k])
  {
    seq(|s|, k requires 0 <= k < |s| => LowerChar(s[k]))
  }
}

=== FILE: time.dfy ===
/** A time of day on the 24-hour clock (`clock::Time`). */
module Times {
  import opened Wrappers
  import Text
  import Orders

  /** Rust's `u8`: the width of both fields. */
  type U8 = x: int | 0 <= x < 0x100

  datatype Time = Time(hour: U8, minute: U8)

  /** The message `Time::new` fails with. */
  const RangeError: string := "Hours have to be less than 24 and minutes have to be less than 60"

  /** What every `Time` the program builds satisfies. */
  predicate Valid(t: Time) {
    t.hour < 24 && t.minute < 60
  }

  /** `Time::new`: an hour past 23 or a minute past 59 is refused with the fixed message. */
  function New(hour: U8, minute: U8): (r: Result<Time, string>)
    ensures r.Ok? <==> Valid(Time(hour, minute))
    ensures r.Ok? ==> r.value == Time(hour, minute)
    ensures r.Err? ==> r.error == RangeError
  {
    if hour > 23 || minute > 59 then Err(RangeError) else Ok(Time(hour, minute))
  }

  /** Minutes since midnight, for a valid time. */
  function Minutes(t: Time): nat {
    t.hour * 60 + t.minute
  }

  /** The derived `PartialOrd`: compare hours, then minutes. On valid times this
      is the order of the clock. */
  predicate Less(a: Time, b: Time)
    ensures Valid(a) && Valid(b) ==> (Less(a, b) <==> Minutes(a) < Minutes(b))
  {
    a.hour < b.hour || (a.hour == b.hour && a.minute < b.minute)
  }

  lemma LessIsStrictTotalOrder()
    ensures Orders.StrictTotalOrder(Less)
  {
  }

  /** The strict span test the day-scoped course code calls `Time::is_between`;
      it is spelled out in the older course code as `start < t && t < end`. */
  predicate IsBetween(t: Time, start: Time, end: Time)
    ensures Valid(t) && Valid(start) && Valid(end) ==>
      (IsBetween(t, start, end) <==> Minutes(start) < Minutes(t) < Minutes(end))
  {
    Less(start, t) && Less(t, end)
  }

  /** Both ends are excluded, and a span whose start is not before its end
      contains no time at all. */
  lemma IsBetweenIsStrict(t: Time, start: Time, end: Time)
    ensures !IsBetween(start, start, end)
    ensures !IsBetween(end, start, end)
    ensures !Less(start, end) ==> !IsBetween(t, start, end)
  {
  }

  /** `Time::as_string` and `Display`: `{:02}:{:02}`. Splitting the text on `:`
      gives back the two padded fields, in order. */
  function AsString(t: Time): (s: string)
    ensures Text.Split(s, ':') == [Text.ZeroPad(t.hour, 2), Text.ZeroPad(t.minute, 2)]
  {
    var h, m := Text.ZeroPad(t.hour, 2), Text.ZeroPad(t.minute, 2);
    Text.SplitAppend(h, m, ':');
    Text.SplitDigits(h, ':');
    Text.SplitDigits(m, ':');
    h + ":" + m
  }

  /** A valid time prints as exactly five characters `HH:MM`, and each field
      reads back from its slot. */
  lemma AsStringLayout(t: Time)
    requires Valid(t)
    ensures |AsString(t)| == 5 && AsString(t)[2] == ':'
    ensures Text.AllDigits(AsString(t)[..2]) && Text.Value(AsString(t)[..2]) == t.hour
    ensures Text.AllDigits(AsString(t)[3..]) && Text.Value(AsString(t)[3..]) == t.minute
  {
    var h, m := Text.ZeroPad(t.hour, 2), Text.ZeroPad(t.minute, 2);
    Text.TwoDigits(t.hour);
    Text.TwoDigits(t.minute);
    Text.ValueOfZeroPad(t.hour, 2);
    Text.ValueOfZeroPad(t.minute, 2);
    var s := AsString(t);
    assert s[..2] == h;
    assert s[3..] == m;
  }

  /** Checks against the unit tests of `clock::time`. */
  lemma Examples()
    ensures New(12, 0).Ok? && New(0, 0).Ok? && New(23, 59).Ok?
    ensures New(24, 0).Err? && New(0, 60).Err?
    ensures Less(Time(9, 0), Time(10, 0))
    ensures Less(Time(10, 0), Time(13, 0)) && Less(Time(9, 0), Time(13, 0))
  {
  }

  /** Single-digit fields are padded to two characters. */
  lemma AsStringExample()
    ensures AsString(Time(9, 5)) == "09:05"
  {
  }
}

=== FILE: wrappers.dfy ===
/** Failure-carrying results, the shape of Rust's `Result<T, E>` and `Option<T>`. */
module Wrappers {

  datatype Option<+T> = None | Some(value: T)

  datatype Result<+T, +E> = Ok(value: T) | Err(error: E)
}

/** Operations on `Vec` shared by every entity of the data layer. */
module Vecs {

  /** `Vec::remove(index)`: drops exactly the element at `index` and shifts the
      tail left by one. Rust panics when `index >= len`; callers must rule that out. */
  function Remove<E>(v: seq<E>, index: nat): (r: seq<E>)
    requires index < |v|
    ensures |r| == |v| - 1
    ensures forall k :: 0 <= k < index ==> r[k] == v[k]
    ensures forall k :: index <= k < |r| ==> r[k] == v[k + 1]
    ensures multiset(r) + multiset{v[index]} == multiset(v)
  {
    assert v == v[..index] + [v[index]] + v[index + 1..];
    v[..index] + v[index + 1..]
  }
}
